=== FILE: README.md ===
# dockerlogs TUI view model in Dafny

dockerlogs follows the logs of several Docker containers at once. In its
terminal UI (`src/tui.rs`), the left pane lists the attached containers,
sorted by name. Each container gets a colour from a nine-entry palette, and
above the list sits an "ALL" entry. The right pane shows a merged buffer of
log lines drawn from the containers that are currently selected.

This project models the view-model behind that UI, `AppState`, as an
immutable Dafny value with a pure function for each method:

- focus movement with Up/Down (`next`, `previous`);
- selection with Space (`toggle_selected`, `select_all`, `deselect_all`);
- a bounded ring of the newest `max_logs` lines per container name
  (`add_log`);
- the merged buffer and its rebuild from the rings of the selected
  containers (`update_displayed_logs`);
- containers arriving and leaving (`add_container`, `remove_container`);
- the width of the left pane (`max_container_name_width`).

It also models the pure text pipeline that `ui` applies to each buffered
line before drawing it:

- removal of ANSI CSI sequences (`strip_ansi_codes`);
- removal of control characters;
- splitting a line into its container name and the rest, with the name's
  colour (`get_color`);
- the width-bounded truncation loops, and the second "safety" truncation
  pass;
- the scroll offset that keeps the newest line on the bottom row.

Modules, one per file:

- `Wrappers` (wrappers.dfy): `Option`.
- `Names` (names.dfy): Rust's `String` order, and the UTF-8 byte length.
- `Containers` (containers.dfy): the container list, its stable sort by
  name, and its selection helpers.
- `Rings` (rings.dfy): the bounded `VecDeque` push.
- `Palette` (palette.dfy): `get_color`.
- `AppModel` (app.dfy): `AppState` and its methods.
- `Ansi` (ansi.dfy): `strip_ansi_codes`.
- `Render` (render.dfy): the per-line logic of `ui`.
- `AppLaws` (app_laws.dfy): laws that relate several operations, and an
  arbitrary interleaving of operations that keeps the invariant.

Representation choices:

- `ListState`'s selection is an `Option<nat>`.
- `select_all_focused` is the flag `allFocused`.
- The per-name `HashMap<String, VecDeque<String>>` is a
  `map<string, seq<string>>`.
- Each `VecDeque` is a `seq`.
- The display width of a character (`unicode-width`) is a parameter
  `width: char -> nat`. The width of a string is the sum of its characters'
  widths.
- `usize` arithmetic is taken from a 64-bit release build (it wraps rather
  than panicking). The `as u16` casts truncate modulo 2^16.

The model follows the code as written, including these behaviours of it:

- Rings are keyed by container *name*. Two rows with the same name read the
  same ring twice, and removing one of them drops the ring they shared.
- When ALL is focused, the first `add_container` also sets the list index to
  0, so both carry focus (`AppLaws.FirstContainerFocusesBoth`).
- `next` from ALL on an empty list leaves nothing focused, so with no
  containers one press of `next` does not return to ALL; with N >= 1
  containers, N+1 presses do (`AppLaws.NextOnEmptyListFromAll`,
  `AppLaws.NextCycleReturnsToAll`).
- The control-character filter runs before the `\r`/`\n`/`\t` replacements,
  so those three characters are deleted and the replacements never fire
  (`Render.ReplacementsNeverFire`).
- The merged buffer is rebuilt by row, in list order, not by arrival time.
  After W1, D1, W2 arrive from web and db, deselecting and then
  reselecting web gives `[D1, W1, W2]`, since db sorts first
  (`AppLaws.RebuildGroupsByRow`).
- Toggling a row twice restores the merged buffer only when it already was
  the rebuilt view of the selection. Otherwise, the second toggle leaves
  that rebuilt view (`AppLaws.ToggleRowTwice`).
- The left pane is the minimum of the longest name (at least 20) plus 3
  and a third of the screen width, so it has no lower bound of its own
  (`Render.LeftPaneWidth`).
- The text budget of the log pane is the pane width less 8, or 5 on a pane
  8 wide or less, so it falls from 5 to 1 between widths 8 and 9
  (`Render.MaxWidthIsNotMonotone`).
- The TUI palette (`get_color`: Cyan, Magenta, Yellow, LightMagenta,
  LightCyan, LightGreen, LightRed, LightYellow, LightBlue) is not the one
  the non-TUI output mode uses in src/main.rs:75-84 (bright green, bright
  blue, and so on).

## Model

| member | source | states |
|---|---|---|
| Names.NameLeTotal | src/tui.rs:247 | Any two names are comparable under the code-point order that `a.name.cmp(&b.name)` sorts by. |
| Names.NameLeTransitive | src/tui.rs:247 | The name order is transitive, so a list sorted by it is ordered pairwise. |
| Names.NameLeAntisymmetric | src/tui.rs:247 | Two names each at most the other are equal. |
| Names.ByteLen | src/tui.rs:307 | `name.len()` counts UTF-8 bytes: between one and four per character, and exactly one per character for ASCII text. |
| Palette.GetColor | src/tui.rs:41-54 | The colour of index i is palette slot i mod 9. |
| Palette.SameColorIffSameSlot | src/tui.rs:41-54 | Two colour indices give the same colour exactly when they agree modulo 9. |
| Rings.Tail | src/tui.rs:228-234 | Keeps at most n entries, all of them when there are no more than n, and always the newest (a suffix). |
| Rings.PushBounded | src/tui.rs:191-194 | Push then pop one from the front when over the cap: the line is last, the ring stays within the cap, and the result is the newest `max` of old + line. |
| Rings.TailOfTailAppend | src/tui.rs:191-194 | Trimming to n, appending and trimming again is the same as trimming once at the end. |
| Rings.PushAllKeepsNewest | src/tui.rs:184-203 | Pushing any run of lines through a ring that starts within its cap leaves exactly the newest `max` of old + new lines. |
| Containers.InsertIndex | src/tui.rs:247 | The insertion point of a new row: the row just before it sorts no later than the new name, and every row after it sorts strictly later. |
| Containers.InsertIndexOnSorted | src/tui.rs:247 | On a list sorted by name, every row before the insertion point sorts no later than the new name. |
| Containers.InsertByName | src/tui.rs:241-247 | Insertion of the appended row into a sorted list: the rows before the insertion point, then the new row, then the rest. |
| Containers.InsertByNameMultiset | src/tui.rs:241-247 | The insertion adds exactly the new row and loses none. |
| Containers.InsertByNameIndices | src/tui.rs:241-247 | Rows before the insertion point keep their index, and rows after it move up by one. |
| Containers.InsertByNameSorted | src/tui.rs:247 | Inserting into a list sorted by name keeps it sorted. |
| Containers.InsertKeepsWellFormed | src/tui.rs:237-247 | Inserting a row with a fresh id and colour keeps the list sorted, with unique ids and unique colours. |
| Containers.SortByName | src/tui.rs:247 | The stable `sort_by` on names yields a sorted permutation of its input. |
| Containers.SortAppendKeepsRows | src/tui.rs:241-247 | Sorting after `push` keeps every old row and the new one, and grows the list by one. |
| Containers.SortSortedIsIdentity | src/tui.rs:247 | Sorting a list that is already in order changes nothing (stability). |
| Containers.SortAppendIsInsert | src/tui.rs:241-247 | Push then stable sort of a sorted list equals insertion after the last row whose name is no later. |
| Containers.FindName | src/tui.rs:264-268 | The lookup of the removed name finds nothing exactly when no row has the id, and otherwise returns the name of a row with that id. |
| Containers.FindNameOfRow | src/tui.rs:264-268 | With unique ids, looking up a row's id returns that row's name. |
| Containers.Retain | src/tui.rs:270 | Keeps exactly the rows whose id differs, and is the identity when the id is absent. |
| Containers.RetainAppend | src/tui.rs:270 | `retain` keeps the survivors in their original order: filtering a concatenation filters each part. |
| Containers.RetainRemovesOneRow | src/tui.rs:270 | With unique ids, removing the row at index k leaves the rows before it followed by the rows after it. |
| Containers.RetainKeepsWellFormed | src/tui.rs:270 | Removing rows keeps the list sorted, with unique ids and colours. |
| Containers.SetSelected | src/tui.rs:166-178 | The `select_all`/`deselect_all` loop: the same rows in the same order, each with its flag forced. |
| Containers.SelectNamed | src/tui.rs:278-282 | Every row with the removed name becomes selected, and the other rows keep their flags. |
| Containers.SelectedCount | src/tui.rs:180-182 | `selected_count` is at most the number of rows. |
| Containers.SelectedCountIsRowCount | src/tui.rs:180-182 | `selected_count` equals the number of row indices whose row is selected. |
| Containers.SelectedCountExtremes | src/tui.rs:180-182 | The count is 0 exactly when no row is selected, and equals the length exactly when every row is selected. |
| Containers.SelectedNames | src/tui.rs:213-218 | The collected names, one per selected row. |
| Containers.SelectedNamesMembers | src/tui.rs:205-218 | A name is collected exactly when `is_container_selected` holds for it. |
| Containers.AllNames | src/tui.rs:166-171 | The name of every row in list order (what the rebuild collects once every row is selected). |
| Containers.SelectedNamesOfAllSelected | src/tui.rs:166-171 | With every row selected, the collected names are all the names, in list order. |
| Containers.SelectedNamesOfNoneSelected | src/tui.rs:173-178 | With every flag cleared, no name is collected. |
| Containers.FindByName | src/tui.rs:256-261 | The first row with a name is found exactly when some row has it. |
| AppModel.LastIndex | src/tui.rs:106 | `len() - 1` in `usize`: one below the length on a non-empty list, and `usize::MAX` (2^64 - 1) on an empty one. |
| AppModel.New | src/tui.rs:81-95 | A fresh state satisfies the invariant: ALL focused, no list selection, no rows, no rings, and an empty buffer. |
| AppModel.Next | src/tui.rs:97-121 | Only focus changes. From an in-range focus it moves one step along ALL -> 0 -> … -> n-1 -> ALL (on an empty list ALL -> nothing), stays in range, and clears the list selection when it lands on ALL. |
| AppModel.Previous | src/tui.rs:123-147 | Only focus changes. From an in-range focus it moves one step back along the cycle (ALL stays put on an empty list), stays in range, and clears the list selection when it lands on ALL. |
| AppModel.Gather | src/tui.rs:220-226 | The rings of the listed names concatenated in list order, a name without a ring adding nothing. Every line of every listed ring appears in the result. |
| AppModel.GatherProvenance | src/tui.rs:220-226 | Every merged line comes from the ring of a selected name, and names without rings contribute nothing. |
| AppModel.UpdateDisplayedLogs | src/tui.rs:211-235 | Only the buffer changes. It becomes the newest `max_logs` lines of the selected rows' rings (a suffix), or all of them when they fit. |
| AppModel.RebuildMergedBuffer | src/tui.rs:211-235 | The loops of `update_displayed_logs` compute the functional rebuild, within the cap. |
| AppModel.CollectSelectedNames | src/tui.rs:213-218 | The filter/map loop yields exactly the selected names, in list order. |
| AppModel.ConcatRings | src/tui.rs:220-226 | The extend loop concatenates the rings of the names in order, and every line comes from one of them. |
| AppModel.FlagChangeKeepsValid | src/tui.rs:149-178 | Changing only selection flags and the buffer (within the cap) keeps the invariant. |
| AppModel.SelectAll | src/tui.rs:166-171 | Every row becomes selected with nothing else about the rows changed. The buffer becomes the newest lines of every row's ring, and the invariant is kept. |
| AppModel.DeselectAll | src/tui.rs:173-178 | Every row becomes unselected and the buffer is emptied, and the invariant is kept. |
| AppModel.ToggleSelected | src/tui.rs:149-164 | With ALL focused, everything is deselected if everything was selected, otherwise everything is selected. With an in-range row focused, only that row's flag flips. Otherwise the state is untouched. Whenever ALL or an in-range row is focused, the buffer is left rebuilt from the new selection. The invariant is kept. |
| AppModel.FlipRow | src/tui.rs:159-160 | Only row i's flag flips. |
| AppModel.AddLog | src/tui.rs:184-203 | The ring for the name exists afterwards and the other rings are untouched. The line is pushed into that ring with the cap. It goes into the buffer only when a row with that name is selected. |
| AppModel.AddLogKeepsValid | src/tui.rs:184-203 | `add_log` keeps every invariant. |
| AppModel.AddContainer | src/tui.rs:237-254 | A known id leaves the state unchanged. Otherwise exactly one selected row is added, with the next colour, and the list stays sorted. Row 0 is focused if the list was empty, the buffer is rebuilt, and the invariant is kept. The info pane (`show_info`, `info_text`) is untouched. |
| AppModel.AppendRow | src/tui.rs:239-251 | Push plus sort adds exactly the new row and keeps the list sorted. It bumps the colour counter and focuses row 0 on a first row. |
| AppModel.AppendRowKeepsValid | src/tui.rs:237-251 | Adding a row with an unused id and the current counter colour keeps the invariant. |
| AppModel.AddContainerValid | src/tui.rs:239-247 | On a valid state, push plus sort is insertion, and the new list is well formed with colours below the bumped counter. |
| AppModel.ClampFocus | src/tui.rs:292-299 | The focus ends up in range: cleared on an empty list, moved to the last row when past the end, and otherwise unchanged. |
| AppModel.RemoveContainer | src/tui.rs:263-302 | The id is gone and the other rows remain in order. If the id was present, its name's ring is dropped and the re-selection is applied. The focus is clamped, the buffer is rebuilt, and the invariant is kept. |
| AppModel.DropRow | src/tui.rs:264-290 | Removes the rows with the id, re-selects, and drops the ring for the removed name, keeping every part of the invariant. An unknown id leaves the rows and the rings unchanged. |
| AppModel.Reselect | src/tui.rs:273-286 | Rows that share the removed name are selected; if none does, every row is. |
| AppModel.RemovalKeepsInvariants | src/tui.rs:270 | After retain (and any flag change) the id is gone, and sortedness, unique ids and colour bounds survive. |
| AppModel.MaxNameBytes | src/tui.rs:305-308 | The longest name in bytes, absent exactly on an empty list. |
| AppModel.MaxContainerNameWidth | src/tui.rs:304-312 | A `u16`: the longest name in bytes, at least 20, plus 3, all modulo 2^16. When no name is long enough to wrap, it is at least 23, covers every name plus 3, and is either 23 or some name's length plus 3. |
| AppModel.U16 | src/tui.rs:310-311 | A `u16` result: the value modulo 2^16, so values below 2^16 are kept and larger ones wrap below themselves. |
| Ansi.SkipCsiBody | src/tui.rs:65-71 | The text after the command letter: a proper suffix, or empty. |
| Ansi.StripAnsi | src/tui.rs:56-78 | Stripping never lengthens a line. |
| Ansi.StripAnsiIsEscFree | src/tui.rs:56-78 | No ESC survives stripping. |
| Ansi.StripAnsiKeepsEscFree | src/tui.rs:73-75 | Text without ESC passes through unchanged. |
| Ansi.StripAnsiAddsNothing | src/tui.rs:56-78 | Every output character occurs in the input. |
| Ansi.StripAnsiIdempotent | src/tui.rs:56-78 | Stripping twice equals stripping once. |
| Ansi.StripAnsiKeepsPlainPrefix | src/tui.rs:73-75 | An ESC-free prefix passes through, and the rest is stripped on its own. |
| Ansi.LoneEscIsDropped | src/tui.rs:61-63 | An ESC not followed by `[` is dropped alone, and the next character survives. |
| Ansi.SkipCsiBodyStopsAtLetter | src/tui.rs:66-70 | The skip consumes up to and including the first ASCII letter, and no further. |
| Ansi.CsiSequenceIsRemoved | src/tui.rs:61-72 | A whole `ESC [ params letter` sequence disappears and the text around it is kept. |
| Ansi.StripAnsiCodes | src/tui.rs:56-78 | The loop with a peek and an inner skip computes the recursive definition, and leaves no ESC. |
| Ansi.SkipCsi | src/tui.rs:66-71 | The inner loop stops just past the command letter, or at the end of the text. |
| Ansi.SkipCsiBodyRunsOut | src/tui.rs:66-71 | With no ASCII letter after `ESC [`, the skip consumes the rest of the text. |
| Ansi.UnterminatedCsiDropsTail | src/tui.rs:61-72 | An `ESC [` never closed by a letter removes everything after it, and the text before it is kept. |
| Render.DropControls | src/tui.rs:428-431 | The filter leaves no control character, adds nothing, and keeps clean text unchanged. |
| Render.ReplaceChar | src/tui.rs:432-434 | `replace` is the identity when the character is absent, and adds only the replacement's characters. |
| Render.Sanitize | src/tui.rs:427-434 | A sanitised line has no control characters and only characters from the stored line. |
| Render.ReplacementsNeverFire | src/tui.rs:428-434 | Sanitising is strip then filter: the three replacements change nothing, and no tab, LF or CR remains. |
| Render.SanitizeKeepsPlainText | src/tui.rs:427-434 | A line with no control characters (so no ESC) is drawn as stored. |
| Render.MaxWidth | src/tui.rs:416-420 | The text budget is the pane width minus 8 when the pane is wider than 8, and 5 otherwise. It is never 0. |
| Render.MaxWidthIsNotMonotone | src/tui.rs:416-420 | The budget falls from 5 at pane width 8 to 1 at width 9, and on panes narrower than 7 it exceeds the pane's interior. |
| Render.SatSub | src/tui.rs:468 | `saturating_sub`: the difference when it is not negative, and 0 otherwise. |
| Render.TruncateFrom | src/tui.rs:473-480 | The loop keeps a prefix of the text whose running width stays strictly below the budget. |
| Render.Truncate | src/tui.rs:488-497 | The kept text is a prefix narrower than the budget, and it is maximal: it is the whole text or the next character would reach the budget. With a budget of 0 nothing is kept. |
| Render.TruncateFromStopsAtOverflow | src/tui.rs:473-480 | The scan stops only at the end of the text or at a character that would reach the budget. |
| Render.TruncateFromKeepsNarrowText | src/tui.rs:473-480 | Text narrower than the budget is never cut. |
| Render.StrWidth | src/tui.rs:467 | The display width of a string as the sum of its characters' widths. |
| Render.StrWidthAppend | src/tui.rs:467 | The width of a concatenation is the sum of the widths. |
| Render.StrWidthCountsColumns | src/tui.rs:467 | No character is wider than its string, and a string of one-column characters is as wide as it has characters. |
| Render.TruncateToWidth | src/tui.rs:488-497 | The `for ch in rest.chars()` loop with `break` computes the maximal-prefix truncation. |
| Render.FirstSpace | src/tui.rs:441 | `find(' ')` returns the first space, or None when there is none. |
| Render.ContainerColor | src/tui.rs:256-261 | A colour is found exactly when a row has that name, and it is that row's palette colour. |
| Render.SplitLine | src/tui.rs:438-461 | With names shown, the first word is split off with its colour exactly when it names a row, and the rest keeps its leading space; otherwise the whole line is the rest. With names hidden, the rest is the text after the first space (the whole line if there is none). Clean lines give clean parts. |
| Render.FirstSpaceAfterWord | src/tui.rs:441 | In "word text" with a space-free word, the first space follows the word. |
| Render.SplitDropsFirstWord | src/tui.rs:453-460 | With names hidden, "word text" is drawn from `text`, whether or not `word` names a row. |
| Render.LineWidth | src/tui.rs:510 | The width of a line, summed over its spans, is at least the width of its first span. |
| Render.LineWidthIsJoinedWidth | src/tui.rs:510 | The summed span widths equal the width of the line's joined text. |
| Render.NamedBudget | src/tui.rs:467-468 | The budget beside a name: `max_width` less the name's width less 2 when that is not negative, and 0 otherwise. |
| Render.DrawParts | src/tui.rs:462-499 | The first pass on split parts: the plain cut text when there is no name, and the coloured name with its cut text when there is one. |
| Render.RenderPlain | src/tui.rs:486-498 | A plain line is an uncoloured prefix of its text, narrower than the budget, and the longest such: it is the whole text or the next character would reach the budget. |
| Render.RenderNamed | src/tui.rs:466-485 | A named line is the coloured name followed by a prefix of the rest. When the name fits, the two spans together stay under the budget by 2. When it does not, no text follows the name. The text is the longest prefix of the rest within the budget left after the name and 2 columns: the whole rest, or the next character would reach that budget. |
| Render.RenderLogLine | src/tui.rs:422-500 | One or two clean spans. A single span is uncoloured and narrower than the budget. Two spans occur only with names shown: a coloured name, then uncoloured text, staying under the budget by 2 when the name fits. There are two spans exactly when `SplitLine` split off a name; the first is that name in its colour and the second is the split rest cut to the budget left after the name. A single span is the split rest cut to the whole budget. |
| Render.HiddenNameDropsFirstWord | src/tui.rs:453-460 | With names hidden, a clean "word text" line whose text fits the budget is drawn as the single uncoloured span `text`. |
| Render.SingleSelectionDropsName | src/tui.rs:410-461 | In the drawn pane, with exactly one row selected, a clean buffered "word text" line is drawn as the single uncoloured span `text` cut to the budget. |
| Render.OtherSelectionsShowName | src/tui.rs:410-485 | In the drawn pane, with any other number of rows selected, a clean buffered "word text" line whose first word names a row is drawn as that word in the row's colour followed by " text" cut to the budget left after the name, when the name leaves room for text. |
| Render.SplitKeepsKnownName | src/tui.rs:438-452 | With names shown, "word text" whose space-free first word names a row splits into that word, its colour, and " text". |
| Render.TakeSpans | src/tui.rs:514-540 | Keeps at most as many spans, each a same-coloured prefix of the original, with the running width below the budget. Every kept span but the last is kept whole. |
| Render.SafetyPass | src/tui.rs:503-546 | Each line ends up narrower than the budget. A line already narrower is untouched. Otherwise spans are only cut or dropped, never recoloured. |
| Render.RenderLogs | src/tui.rs:422-546 | One drawn line per buffered line, each clean and narrower than the budget. Line k is exactly `ShownLine` of buffered line k, sanitised and split, with names shown unless exactly one row is selected. |
| Render.ShownLine | src/tui.rs:462-546 | The case-by-case reading of a drawn line, independent of the two passes, has one or two spans and is narrower than any positive budget. |
| Render.BothPassesGiveShownLine | src/tui.rs:462-546 | The first truncation pass followed by the safety pass draws exactly `ShownLine` for any positive budget. |
| Render.OverlongNameIsCut | src/tui.rs:514-540 | A name span that alone reaches the budget is the only span kept, cut to the budget. |
| Render.ShownLineOfRoomyName | src/tui.rs:466-485 | When the name leaves room, the drawn line is the coloured name and the rest cut to the budget left after it. |
| Render.ShownPartsArePrefix | src/tui.rs:462-498 | The drawn text is a prefix of the name followed by the rest, or of the rest when there is no name. |
| Render.ShownTextIsPrefix | src/tui.rs:436-498 | The drawn text is a prefix of the sanitised line when names are shown, and of the text after the first space when they are hidden. |
| Render.SafetyPassOnlyCutsOverlongNames | src/tui.rs:503-546 | The safety pass changes no line drawn without a name, nor a named line whose name fits. |
| Render.ScrollOffset | src/tui.rs:549-555 | A `u16`: 0 when the lines fit in the pane height less 2 for the borders, otherwise the overflow count (truncated to 16 bits). |
| Render.LeftPaneWidth | src/tui.rs:319 | At most a third of the screen and at most the name-width bound, and equal to one of the two. |
| AppLaws.NextWalksDownTheList | src/tui.rs:97-121 | From ALL on a non-empty list, the k-th `next` focuses row k-1 and nothing else changes. |
| AppLaws.NextCycleReturnsToAll | src/tui.rs:97-121 | With N >= 1 rows, N+1 presses from ALL return to ALL with no row selected. |
| AppLaws.NextOnEmptyListFromAll | src/tui.rs:98-117 | On an empty list, `next` from ALL focuses nothing, and a second `next` restores the state. |
| AppLaws.PreviousUndoesNext | src/tui.rs:97-147 | `previous` undoes `next` on every focusable row. |
| AppLaws.NextUndoesPrevious | src/tui.rs:97-147 | `next` undoes `previous`, except from ALL on an empty list. |
| AppLaws.PreviousFromAll | src/tui.rs:124-128 | `previous` from ALL does nothing on an empty list and focuses the last row otherwise. |
| AppLaws.FirstContainerFocusesBoth | src/tui.rs:248-251 | The first container added while ALL is focused leaves ALL focused and also selects row 0. |
| AppLaws.ToggleRowTwice | src/tui.rs:158-162 | Toggling a focused row twice restores every flag, and the buffer is the rebuilt view. The state is restored exactly when the buffer already was that view. |
| AppLaws.FlipRowTwice | src/tui.rs:159-160 | Flipping a row twice restores it. |
| AppLaws.UpdateIgnoresOldLogs | src/tui.rs:211-212 | The rebuild does not depend on what the buffer held before. |
| AppLaws.ToggleRowIsFlip | src/tui.rs:158-162 | With an in-range row focused, a toggle is that row's flip followed by the rebuild, and the focus is kept. |
| AppLaws.SelectAllIdempotent | src/tui.rs:166-171 | `select_all` twice equals once. |
| AppLaws.SelectAllShowsEveryRing | src/tui.rs:166-171 | After `select_all`, the buffer is the newest lines of every row's ring, in list order. |
| AppLaws.DeselectAllShowsNothing | src/tui.rs:173-178 | After `deselect_all` the buffer is empty, and a second call changes nothing. |
| AppLaws.AddContainerIdempotent | src/tui.rs:237-238 | Adding the same id twice equals adding it once. |
| AppLaws.AddContainerColorIsNewest | src/tui.rs:239-246 | A newly added row's colour index is above that of every earlier row. |
| AppLaws.RowRingsSnoc | src/tui.rs:213-226 | The per-row reading grows by the last row's ring when that row is selected. |
| AppLaws.MergedSourceIsPerRow | src/tui.rs:213-226 | Collecting names and then concatenating their rings equals walking the rows and taking each selected row's ring. |
| AppLaws.GatherSnoc | src/tui.rs:222-225 | One more name adds its ring at the end, or nothing when it has none. |
| AppLaws.GatherSelectedSnoc | src/tui.rs:213-226 | A last selected row adds its ring at the end, and a last unselected row adds nothing. |
| AppLaws.RebuildGroupsByRow | src/tui.rs:211-235 | With rows [a, b] both selected, the rebuilt source is a's ring followed by b's ring, whatever the lines' arrival order. |
| AppLaws.TwinsShowTheirRingTwice | src/tui.rs:211-235 | Two selected rows with the same name show the shared ring twice. |
| AppLaws.RemovingOneTwinDropsSharedRing | src/tui.rs:263-290 | Removing one of two rows that share a name leaves the other selected but deletes their shared ring. |
| AppLaws.TwinStaysSelected | src/tui.rs:275-282 | After removal, a remaining row with the removed name is selected. |
| AppLaws.AddLogsKeepNewest | src/tui.rs:184-195 | Any run of `add_log` calls for one name leaves that ring holding the newest `max_logs` lines of old + new. |
| AppLaws.FiveLinesIntoThreeSlots | src/tui.rs:191-194 | With `max_logs` 3, lines L1..L5 leave ["L3", "L4", "L5"]. |
| AppLaws.Step | src/tui.rs:97-302 | Every operation (key press, log line, container event) keeps the invariant and the cap. |
| AppLaws.RunKeepsValid | src/tui.rs:97-302 | Any sequence of operations keeps the invariant and the cap. |
| AppLaws.SessionKeepsValid | src/tui.rs:81-302 | From `new`, any sequence of operations keeps the invariant, and the buffer never exceeds `max_logs`. |

## Left out

- `log_container`, `get_container_info` and `run_tui` are left out. They
  are the Docker client, the async tasks, the terminal set-up and the
  key-event loop. The operations they apply to the state are modelled as
  `AppLaws.Op`.
- `show_info` and `info_text` are carried in the state, but are only
  toggled by `run_tui`. The info pane is not drawn.
- Layout, widgets and styling (ratatui `Layout`, `List`, `Paragraph`,
  `Block`, bold modifiers) are left out. The log pane is modelled down to
  its spans and their colours.
- ratatui clamps a `ListState` selection at draw time. This is left out:
  the model keeps the raw index, as `AppState` does.
- The Unicode width tables of `unicode-width` are left out. Character width
  is a parameter, and a string's width is taken as the sum of its
  characters' widths (`UnicodeWidthStr::width` can differ for some
  combining sequences).
- `char::is_control` is modelled as the Unicode Cc set: U+0000–U+001F and
  U+007F–U+009F.
- Debug-build overflow panics are left out: `usize` and `u16` arithmetic is
  taken to wrap as in a release build.
- `color_counter` overflowing `usize` is left out: the counter is an
  unbounded `nat`.
- `main.rs` and `build.rs` (argument parsing, regex filtering and the
  non-TUI output mode) are not part of this model.
- Containers.FindName: states that the name found belongs to some row with
  the id, not that it is the first such row. Under the list invariant ids
  are unique, and then the two coincide (`Containers.FindNameOfRow`).
- Containers.FindByName: states that the row found has the name, not that
  it is the first such row.
- Render.ContainerColor: states that the colour is that of some row with the
  name, not the first one. The two differ only for rows that share a name.
- AppModel.MaxContainerNameWidth: for every list, the result is stated as
  (longest name in bytes, at least 20, plus 3) modulo 2^16. The readings "at
  least 23" and "some name plus 3" are stated only when every name is
  shorter than 2^16 - 3 bytes, because the wrap breaks them for longer
  names.
- Render.ScrollOffset: for any overflow, the offset is stated as the overflow
  modulo 2^16. The reading "exactly the overflow" is stated only when the
  overflow is below 2^16.

=== FILE: ansi.dfy ===
/** `strip_ansi_codes` (tui.rs): removal of terminal escape sequences from a
    log line before it is drawn. */
module Ansi {

  const ESC: char := '\U{1B}'

  predicate IsAsciiAlpha(c: char) {
    ('A' <= c <= 'Z') || ('a' <= c <= 'z')
  }

  predicate EscFree(s: string) {
    forall i :: 0 <= i < |s| ==> s[i] != ESC
  }

  /** The inner loop after `ESC [`: consume characters up to and including
      the first ASCII letter (the command character), or to the end. */
  function SkipCsiBody(s: string): (r: string)
    ensures |r| <= |s| && r == s[|s| - |r|..]
    ensures |r| < |s| || r == []
    decreases |s|
  {
    if |s| == 0 then []
    else if IsAsciiAlpha(s[0]) then s[1..]
    else SkipCsiBody(s[1..])
  }

  /** The text of `s` with every `ESC [ ... letter` sequence removed and
      every other ESC dropped on its own. */
  function StripAnsi(s: string): (r: string)
    ensures |r| <= |s|
    decreases |s|
  {
    if |s| == 0 then []
    else if s[0] == ESC then
      if |s| >= 2 && s[1] == '[' then StripAnsi(SkipCsiBody(s[2..]))
      else StripAnsi(s[1..])
    else [s[0]] + StripAnsi(s[1..])
  }

  /** No ESC survives. */
  lemma {:induction false} StripAnsiIsEscFree(s: string)
    ensures EscFree(StripAnsi(s))
    decreases |s|
  {
    if |s| > 0 {
      if s[0] == ESC {
        if |s| >= 2 && s[1] == '[' {
          StripAnsiIsEscFree(SkipCsiBody(s[2..]));
        } else {
          StripAnsiIsEscFree(s[1..]);
        }
      } else {
        StripAnsiIsEscFree(s[1..]);
        var t := StripAnsi(s[1..]);
        assert forall i :: 1 <= i < |[s[0]] + t| ==> ([s[0]] + t)[i] == t[i - 1];
      }
    }
  }

  /** Text without ESC passes through unchanged. */
  lemma {:induction false} StripAnsiKeepsEscFree(s: string)
    requires EscFree(s)
    ensures StripAnsi(s) == s
    decreases |s|
  {
    if |s| > 0 {
      assert s[0] != ESC;
      assert EscFree(s[1..]) by {
        assert forall i :: 0 <= i < |s[1..]| ==> s[1..][i] == s[i + 1];
      }
      StripAnsiKeepsEscFree(s[1..]);
      assert [s[0]] + s[1..] == s;
    }
  }

  /** Every character of the result comes from the input. */
  lemma {:induction false} StripAnsiAddsNothing(s: string)
    ensures forall c :: c in StripAnsi(s) ==> c in s
    decreases |s|
  {
    if |s| > 0 {
      if s[0] == ESC {
        if |s| >= 2 && s[1] == '[' {
          var rest := SkipCsiBody(s[2..]);
          StripAnsiAddsNothing(rest);
          assert forall c :: c in rest ==> c in s by {
            assert forall i :: 0 <= i < |rest| ==> rest[i] == s[|s| - |rest| + i];
          }
        } else {
          StripAnsiAddsNothing(s[1..]);
        }
      } else {
        StripAnsiAddsNothing(s[1..]);
      }
    }
  }

  /** Stripping twice is stripping once. */
  lemma StripAnsiIdempotent(s: string)
    ensures StripAnsi(StripAnsi(s)) == StripAnsi(s)
  {
    StripAnsiIsEscFree(s);
    StripAnsiKeepsEscFree(StripAnsi(s));
  }

  /** An ESC-free prefix passes through untouched. */
  lemma {:induction false} StripAnsiKeepsPlainPrefix(p: string, q: string)
    requires EscFree(p)
    ensures StripAnsi(p + q) == p + StripAnsi(q)
    decreases |p|
  {
    if |p| > 0 {
      var pq := p + q;
      assert pq[0] == p[0] != ESC;
      assert pq[1..] == p[1..] + q;
      calc {
        StripAnsi(pq);
        [p[0]] + StripAnsi(pq[1..]);
        { StripAnsiKeepsPlainPrefix(p[1..], q); }
        [p[0]] + (p[1..] + StripAnsi(q));
        { assert p == [p[0]] + p[1..]; }
        p + StripAnsi(q);
      }
    } else {
      assert p + q == q;
    }
  }

  /** An ESC that does not open a CSI sequence is dropped alone: the
      character after it survives. */
  lemma LoneEscIsDropped(p: string, q: string)
    requires EscFree(p)
    requires |q| == 0 || q[0] != '['
    ensures StripAnsi(p + [ESC] + q) == p + StripAnsi(q)
  {
    StripAnsiKeepsPlainPrefix(p, [ESC] + q);
    assert p + [ESC] + q == p + ([ESC] + q);
    assert ([ESC] + q)[1..] == q;
  }

  lemma {:induction false} SkipCsiBodyStopsAtLetter(body: string, letter: char, q: string)
    requires forall i :: 0 <= i < |body| ==> !IsAsciiAlpha(body[i])
    requires IsAsciiAlpha(letter)
    ensures SkipCsiBody(body + [letter] + q) == q
    decreases |body|
  {
    if |body| > 0 {
      assert (body + [letter] + q)[1..] == body[1..] + [letter] + q;
      SkipCsiBodyStopsAtLetter(body[1..], letter, q);
    } else {
      assert body + [letter] + q == [letter] + q;
    }
  }

  /** A whole CSI sequence `ESC [ body letter` disappears, and nothing
      around it changes. */
  lemma CsiSequenceIsRemoved(p: string, body: string, letter: char, q: string)
    requires EscFree(p)
    requires forall i :: 0 <= i < |body| ==> !IsAsciiAlpha(body[i])
    requires IsAsciiAlpha(letter)
    ensures StripAnsi(p + [ESC, '['] + body + [letter] + q) == p + StripAnsi(q)
  {
    var tail := [ESC, '['] + body + [letter] + q;
    Regroup(p, [ESC, '['], body, [letter], q);
    StripAnsiKeepsPlainPrefix(p, tail);
    CsiAtFront(body, letter, q);
  }

  lemma Regroup(p: string, a: string, b: string, c: string, q: string)
    ensures p + a + b + c + q == p + (a + b + c + q)
  {
  }

  /** With no letter after it, the CSI body runs to the end of the text. */
  lemma {:induction false} SkipCsiBodyRunsOut(body: string)
    requires forall i :: 0 <= i < |body| ==> !IsAsciiAlpha(body[i])
    ensures SkipCsiBody(body) == []
    decreases |body|
  {
    if |body| > 0 {
      SkipCsiBodyRunsOut(body[1..]);
    }
  }

  /** An unterminated CSI sequence, `ESC [` with no ASCII letter after it,
      takes the rest of the line with it: only the text before it is kept. */
  lemma UnterminatedCsiDropsTail(p: string, body: string)
    requires EscFree(p)
    requires forall i :: 0 <= i < |body| ==> !IsAsciiAlpha(body[i])
    ensures StripAnsi(p + [ESC, '['] + body) == p
  {
    var tail := [ESC, '['] + body;
    assert p + [ESC, '['] + body == p + tail;
    StripAnsiKeepsPlainPrefix(p, tail);
    UnterminatedCsiAtFront(body);
    assert p + [] == p;
  }

  lemma UnterminatedCsiAtFront(body: string)
    requires forall i :: 0 <= i < |body| ==> !IsAsciiAlpha(body[i])
    ensures StripAnsi([ESC, '['] + body) == []
  {
    var tail := [ESC, '['] + body;
    assert tail[0] == ESC && tail[1] == '[' && tail[2..] == body;
    SkipCsiBodyRunsOut(body);
  }

  lemma CsiAtFront(body: string, letter: char, q: string)
    requires forall i :: 0 <= i < |body| ==> !IsAsciiAlpha(body[i])
    requires IsAsciiAlpha(letter)
    ensures StripAnsi([ESC, '['] + body + [letter] + q) == StripAnsi(q)
  {
    var tail := [ESC, '['] + body + [letter] + q;
    assert tail[0] == ESC && tail[1] == '[';
    assert tail[2..] == body + [letter] + q;
    SkipCsiBodyStopsAtLetter(body, letter, q);
  }

  /** `strip_ansi_codes` as the source writes it: one pass with a peek at the
      character after each ESC, and an inner loop that skips to the command
      letter. */
  method StripAnsiCodes(s: string) returns (result: string)
    ensures result == StripAnsi(s)
    ensures EscFree(result)
  {
    StripAnsiIsEscFree(s);
    result := [];
    var i := 0;
    assert s[0..] == s;
    while i < |s|
      invariant 0 <= i <= |s|
      invariant result + StripAnsi(s[i..]) == StripAnsi(s)
    {
      var ch := s[i];
      if ch == ESC {
        if i + 1 < |s| && s[i + 1] == '[' {
          StripStepCsi(s, i);
          i := SkipCsi(s, i + 2);
        } else {
          StripStepLoneEsc(s, i);
          i := i + 1;
        }
      } else {
        StripStepPlain(result, s, i);
        result := result + [ch];
        i := i + 1;
      }
    }
    assert s[i..] == [];
    assert result + [] == result;
  }

  /** The inner `while let Some(next) = chars.next()` loop: the index just
      past the command letter, or the end of the text. */
  method SkipCsi(s: string, start: nat) returns (i: nat)
    requires start <= |s|
    ensures start <= i <= |s| && s[i..] == SkipCsiBody(s[start..])
  {
    i := start;
    while i < |s|
      invariant start <= i <= |s|
      invariant SkipCsiBody(s[i..]) == SkipCsiBody(s[start..])
    {
      var next := s[i];
      SkipStep(s, i);
      i := i + 1;
      if IsAsciiAlpha(next) {
        return;
      }
    }
    assert s[i..] == [];
  }

  lemma SkipStep(s: string, i: nat)
    requires i < |s|
    ensures IsAsciiAlpha(s[i]) ==> SkipCsiBody(s[i..]) == s[i + 1..]
    ensures !IsAsciiAlpha(s[i]) ==> SkipCsiBody(s[i..]) == SkipCsiBody(s[i + 1..])
  {
    assert s[i..][0] == s[i] && s[i..][1..] == s[i + 1..];
  }

  lemma StripStepPlain(result: string, s: string, i: nat)
    requires i < |s| && s[i] != ESC
    ensures result + StripAnsi(s[i..]) == (result + [s[i]]) + StripAnsi(s[i + 1..])
  {
    assert s[i..][0] == s[i] && s[i..][1..] == s[i + 1..];
    var rest := StripAnsi(s[i + 1..]);
    assert result + ([s[i]] + rest) == (result + [s[i]]) + rest;
  }

  lemma StripStepLoneEsc(s: string, i: nat)
    requires i < |s| && s[i] == ESC && !(i + 1 < |s| && s[i + 1] == '[')
    ensures StripAnsi(s[i..]) == StripAnsi(s[i + 1..])
  {
    assert s[i..][0] == s[i] && s[i..][1..] == s[i + 1..];
  }

  lemma StripStepCsi(s: string, i: nat)
    requires i + 1 < |s| && s[i] == ESC && s[i + 1] == '['
    ensures StripAnsi(s[i..]) == StripAnsi(SkipCsiBody(s[i + 2..]))
  {
    assert s[i..][0] == s[i] && s[i..][1] == s[i + 1] && s[i..][2..] == s[i + 2..];
  }
}

=== FILE: app.dfy ===
/** The TUI view model, `AppState` in tui.rs, as an immutable value with one
    state-transformer function per method. The source's `&mut self` methods
    become functions from the old state to the new one. */
module AppModel {
  import opened Wrappers
  import opened Names
  import opened Containers
  import opened Rings

  /** `usize::MAX` on a 64-bit target. */
  const USIZE_MAX: nat := 0xFFFF_FFFF_FFFF_FFFF

  /** The fields of `AppState`. `focus` is the `ListState` selection (the
      focused list row, if any); `allFocused` is `select_all_focused`; `logs`
      is the merged buffer shown on the right; `containerLogs` holds one ring
      per container NAME. */
  datatype AppState = AppState(
    containers: seq<Container>,
    focus: Option<nat>,
    logs: seq<string>,
    maxLogs: nat,
    containerLogs: map<string, seq<string>>,
    colorCounter: nat,
    showInfo: bool,
    infoText: string,
    allFocused: bool)

  predicate FocusInRange(s: AppState) {
    s.focus.Some? ==> s.focus.value < |s.containers|
  }

  predicate RingsBounded(m: map<string, seq<string>>, max: nat) {
    forall n :: n in m ==> |m[n]| <= max
  }

  /** The invariants every reachable state keeps: the list is sorted by name
      with unique ids and unique colours drawn from below the counter, every
      buffer respects `max_logs`, and a focused list index names an existing
      row. */
  predicate Valid(s: AppState) {
    && WellFormedList(s.containers)
    && ColorsBelow(s.containers, s.colorCounter)
    && |s.logs| <= s.maxLogs
    && RingsBounded(s.containerLogs, s.maxLogs)
    && FocusInRange(s)
  }

  // ---------------------------------------------------------------- focus

  /** The row that navigation and toggling act on. `select_all_focused` takes
      precedence over the list index; `NoRow` is the state with neither. */
  datatype Row = AllRow | ListRow(index: nat) | NoRow

  function FocusedRow(s: AppState): Row {
    if s.allFocused then AllRow
    else match s.focus
      case Some(i) => ListRow(i)
      case None => NoRow
  }

  /** The intended cyclic order ALL -> 0 -> 1 -> ... -> n-1 -> ALL, with the
      source's behaviour when the list is empty (ALL -> nothing -> ALL). */
  function SuccRow(r: Row, n: nat): Row {
    match r
    case AllRow => if n == 0 then NoRow else ListRow(0)
    case ListRow(i) => if i + 1 < n then ListRow(i + 1) else AllRow
    case NoRow => AllRow
  }

  /** The same cycle walked backwards; on an empty list ALL stays put. */
  function PredRow(r: Row, n: nat): Row {
    match r
    case AllRow => if n == 0 then AllRow else ListRow(n - 1)
    case ListRow(i) => if i == 0 then AllRow else ListRow(i - 1)
    case NoRow => AllRow
  }

  /** `self.containers.len() - 1` in `usize`: on an empty list it wraps
      round to `usize::MAX` (a release build; a debug build panics). */
  function LastIndex(n: nat): (r: nat)
    ensures n > 0 ==> r + 1 == n
    ensures n == 0 ==> r == USIZE_MAX
  {
    if n == 0 then USIZE_MAX else n - 1
  }

  /** `AppState::new(max_logs)`. */
  function New(maxLogs: nat): (s: AppState)
    ensures Valid(s) && s.maxLogs == maxLogs
    ensures FocusedRow(s) == AllRow && s.focus == None
    ensures s.containers == [] && s.logs == [] && s.containerLogs == map[]
  {
    AppState([], None, [], maxLogs, map[], 0, false, "", true)
  }

  /** `next`: move the focus one row down the cycle. */
  function Next(s: AppState): (r: AppState)
    ensures r == s.(focus := r.focus, allFocused := r.allFocused)
    ensures FocusInRange(s) ==> FocusInRange(r)
    ensures FocusInRange(s) ==> FocusedRow(r) == SuccRow(FocusedRow(s), |s.containers|)
    ensures r.allFocused ==> r.focus == None
  {
    if s.allFocused then
      s.(allFocused := false, focus := if |s.containers| > 0 then Some(0) else s.focus)
    else match s.focus
      case Some(i) =>
        if i >= LastIndex(|s.containers|) then s.(allFocused := true, focus := None)
        else s.(focus := Some(i + 1))
      case None => s.(allFocused := true)
  }

  /** `previous`: move the focus one row up the cycle. */
  function Previous(s: AppState): (r: AppState)
    ensures r == s.(focus := r.focus, allFocused := r.allFocused)
    ensures FocusInRange(s) ==> FocusInRange(r)
    ensures FocusInRange(s) ==> FocusedRow(r) == PredRow(FocusedRow(s), |s.containers|)
    ensures FocusInRange(s) && r.allFocused ==> r.focus == None
  {
    if s.allFocused then
      if |s.containers| > 0 then s.(allFocused := false, focus := Some(|s.containers| - 1))
      else
        assert FocusInRange(s) ==> s.focus == None;
        s
    else match s.focus
      case Some(i) =>
        if i == 0 then s.(allFocused := true, focus := None)
        else s.(focus := Some(i - 1))
      case None => s.(allFocused := true)
  }

  // --------------------------------------------------------- merged buffer

  /** The rings of `names`, concatenated in order; a name with no ring adds
      nothing (the `if let Some(..) = self.container_logs.get(..)` loop). */
  function Gather(names: seq<string>, m: map<string, seq<string>>): (r: seq<string>)
    ensures forall n, l :: n in names && n in m && l in m[n] ==> l in r
    decreases |names|
  {
    if |names| == 0 then []
    else
      var last := names[|names| - 1];
      assert names == names[..|names| - 1] + [last];
      Gather(names[..|names| - 1], m) + (if last in m then m[last] else [])
  }

  /** Every gathered line comes from the ring of a listed name, and names
      with no ring contribute nothing. */
  lemma {:induction false} GatherProvenance(names: seq<string>, m: map<string, seq<string>>)
    ensures forall l :: l in Gather(names, m) ==> exists n :: n in names && n in m && l in m[n]
    ensures (forall n :: n in names ==> n !in m) ==> Gather(names, m) == []
    decreases |names|
  {
    if |names| > 0 {
      var init, last := names[..|names| - 1], names[|names| - 1];
      GatherProvenance(init, m);
      assert forall n :: n in init ==> n in names;
      assert last in names;
    }
  }

  /** Every line the selected containers' rings hold, grouped by container
      in list order: what the merged buffer is rebuilt from. */
  function MergedSource(s: AppState): seq<string> {
    Gather(SelectedNames(s.containers), s.containerLogs)
  }

  /** The merged buffer is exactly the rebuilt view of the current selection. */
  predicate LogsRebuilt(s: AppState) {
    s.logs == Tail(MergedSource(s), s.maxLogs)
  }

  /** `update_displayed_logs`: replace the merged buffer by the newest
      `max_logs` lines of the selected rings. */
  function UpdateDisplayedLogs(s: AppState): (r: AppState)
    ensures r == s.(logs := r.logs)
    ensures |r.logs| <= s.maxLogs && |r.logs| <= |MergedSource(s)|
    ensures r.logs == MergedSource(s)[|MergedSource(s)| - |r.logs|..]
    ensures |r.logs| == s.maxLogs || r.logs == MergedSource(s)
    ensures LogsRebuilt(r)
  {
    s.(logs := Tail(MergedSource(s), s.maxLogs))
  }

  /** `update_displayed_logs` as the source writes it: collect the selected
      names, concatenate their rings in a loop, keep the last `max_logs`. */
  method RebuildMergedBuffer(s: AppState) returns (r: AppState)
    ensures r == UpdateDisplayedLogs(s)
    ensures LogsRebuilt(r) && |r.logs| <= s.maxLogs
  {
    var selectedNames := CollectSelectedNames(s.containers);
    var allLogs := ConcatRings(selectedNames, s.containerLogs);
    var start := if |allLogs| > s.maxLogs then |allLogs| - s.maxLogs else 0;
    r := s.(logs := allLogs[start..]);
  }

  /** The `filter(|c| c.selected).map(|c| c.name.clone()).collect()` pass. */
  method CollectSelectedNames(cs: seq<Container>) returns (names: seq<string>)
    ensures names == SelectedNames(cs)
    ensures forall n :: n in names <==> IsContainerSelected(cs, n)
  {
    names := [];
    var i := 0;
    while i < |cs|
      invariant 0 <= i <= |cs|
      invariant names == SelectedNames(cs[..i])
    {
      assert cs[..i + 1][..i] == cs[..i];
      if cs[i].selected {
        names := names + [cs[i].name];
      }
      i := i + 1;
    }
    assert cs[..i] == cs;
    SelectedNamesMembers(cs);
  }

  /** The `all_logs.extend(..)` loop over the selected names. */
  method ConcatRings(names: seq<string>, m: map<string, seq<string>>) returns (all: seq<string>)
    ensures all == Gather(names, m)
    ensures forall l :: l in all ==> exists n :: n in names && n in m && l in m[n]
  {
    all := [];
    var j := 0;
    while j < |names|
      invariant 0 <= j <= |names|
      invariant all == Gather(names[..j], m)
    {
      assert names[..j + 1][..j] == names[..j];
      if names[j] in m {
        all := all + m[names[j]];
      }
      j := j + 1;
    }
    assert names[..j] == names;
    GatherProvenance(names, m);
  }

  /** A change that only rewrites `selected` flags and rebuilds the merged
      buffer keeps every invariant. */
  lemma FlagChangeKeepsValid(s: AppState, r: AppState)
    requires r == s.(containers := r.containers, logs := r.logs)
    requires SameRows(s.containers, r.containers)
    ensures Valid(s) && |r.logs| <= s.maxLogs ==> Valid(r)
  {
    if Valid(s) {
      SameRowsKeepsWellFormed(s.containers, r.containers);
      forall c | c in r.containers
        ensures c.colorIndex < s.colorCounter
      {
        var i :| 0 <= i < |r.containers| && r.containers[i] == c;
        assert s.containers[i].(selected := c.selected) == c;
        assert s.containers[i] in s.containers;
      }
    }
  }

  /** `select_all`. */
  function SelectAll(s: AppState): (r: AppState)
    ensures SameRows(s.containers, r.containers) && AllSelected(r.containers)
    ensures r == s.(containers := r.containers, logs := r.logs)
    ensures r.logs == Tail(Gather(AllNames(s.containers), s.containerLogs), s.maxLogs)
    ensures LogsRebuilt(r)
    ensures Valid(s) ==> Valid(r)
  {
    var cs := SetSelected(s.containers, true);
    SelectedNamesOfAllSelected(cs);
    assert AllNames(cs) == AllNames(s.containers);
    FlagChangeKeepsValid(s, UpdateDisplayedLogs(s.(containers := cs)));
    UpdateDisplayedLogs(s.(containers := cs))
  }

  /** `deselect_all`. */
  function DeselectAll(s: AppState): (r: AppState)
    ensures SameRows(s.containers, r.containers)
    ensures forall c :: c in r.containers ==> !c.selected
    ensures r == s.(containers := r.containers, logs := r.logs)
    ensures r.logs == []
    ensures LogsRebuilt(r)
    ensures Valid(s) ==> Valid(r)
  {
    var cs := SetSelected(s.containers, false);
    SelectedNamesOfNoneSelected(cs);
    FlagChangeKeepsValid(s, UpdateDisplayedLogs(s.(containers := cs)));
    UpdateDisplayedLogs(s.(containers := cs))
  }

  /** `toggle_selected`. With ALL focused, deselect everything if everything
      is selected (vacuously so on an empty list), else select everything;
      with an in-range row focused, flip that row alone; otherwise nothing. */
  function ToggleSelected(s: AppState): (r: AppState)
    ensures r == s.(containers := r.containers, logs := r.logs)
    ensures SameRows(s.containers, r.containers)
    ensures s.allFocused && AllSelected(s.containers) ==>
      forall c :: c in r.containers ==> !c.selected
    ensures s.allFocused && !AllSelected(s.containers) ==> AllSelected(r.containers)
    ensures !s.allFocused && s.focus.Some? && s.focus.value < |s.containers| ==>
      forall j :: 0 <= j < |s.containers| ==>
        r.containers[j].selected == (if j == s.focus.value then !s.containers[j].selected else s.containers[j].selected)
    ensures !s.allFocused && (s.focus.None? || s.focus.value >= |s.containers|) ==> r == s
    ensures r == s || LogsRebuilt(r)
    ensures s.allFocused || (s.focus.Some? && s.focus.value < |s.containers|) ==> LogsRebuilt(r)
    ensures Valid(s) ==> Valid(r)
  {
    if s.allFocused then
      if AllSelected(s.containers) then DeselectAll(s) else SelectAll(s)
    else match s.focus
      case Some(i) =>
        if i < |s.containers| then UpdateDisplayedLogs(FlipRow(s, i)) else s
      case None => s
  }

  /** Flips the `selected` flag of row `i` and nothing else. */
  function FlipRow(s: AppState, i: nat): (r: AppState)
    requires i < |s.containers|
    ensures r == s.(containers := r.containers)
    ensures SameRows(s.containers, r.containers)
    ensures forall j :: 0 <= j < |s.containers| ==>
      r.containers[j].selected == (if j == i then !s.containers[j].selected else s.containers[j].selected)
    ensures Valid(s) ==> Valid(r)
  {
    var c := s.containers[i];
    var r := s.(containers := s.containers[i := c.(selected := !c.selected)]);
    FlagChangeKeepsValid(s, r);
    r
  }

  // ------------------------------------------------------------- log lines

  /** The ring kept for `name` (an absent ring reads as empty). */
  function RingOf(s: AppState, name: string): seq<string> {
    if name in s.containerLogs then s.containerLogs[name] else []
  }

  /** `add_log(name, line)`: push onto the ring for `name` (creating it if
      need be), and onto the merged buffer when a container of that name is
      selected; each push evicts the oldest line beyond `max_logs`. */
  function AddLog(s: AppState, name: string, line: string): (r: AppState)
    ensures r == s.(containerLogs := r.containerLogs, logs := r.logs)
    ensures r.containerLogs.Keys == s.containerLogs.Keys + {name}
    ensures forall n :: n in s.containerLogs && n != name ==> r.containerLogs[n] == s.containerLogs[n]
    ensures |RingOf(s, name)| <= s.maxLogs ==>
      |RingOf(r, name)| <= s.maxLogs && RingOf(r, name) == Tail(RingOf(s, name) + [line], s.maxLogs)
    ensures IsContainerSelected(s.containers, name) && |s.logs| <= s.maxLogs ==>
      |r.logs| <= s.maxLogs && r.logs == Tail(s.logs + [line], s.maxLogs)
    ensures !IsContainerSelected(s.containers, name) ==> r.logs == s.logs
  {
    var ring := PushBounded(RingOf(s, name), line, s.maxLogs);
    var logs := if IsContainerSelected(s.containers, name) then PushBounded(s.logs, line, s.maxLogs) else s.logs;
    s.(containerLogs := s.containerLogs[name := ring], logs := logs)
  }

  /** `add_log` keeps every invariant: only ring contents and the merged
      buffer change, and both stay within `max_logs`. */
  lemma AddLogKeepsValid(s: AppState, name: string, line: string)
    ensures Valid(s) ==> Valid(AddLog(s, name, line))
  {
    if Valid(s) {
      var r := AddLog(s, name, line);
      RingUpdateKeepsBound(s.containerLogs, name, RingOf(r, name), s.maxLogs);
      assert r.containerLogs == s.containerLogs[name := RingOf(r, name)];
    }
  }

  lemma RingUpdateKeepsBound(m: map<string, seq<string>>, name: string, ring: seq<string>, max: nat)
    requires RingsBounded(m, max) && |ring| <= max
    ensures RingsBounded(m[name := ring], max)
  {
  }

  // ------------------------------------------------------ list membership

  /** `add_container(id, name)`: a no-op when the id is already listed;
      otherwise append a selected row with the next colour, re-sort by name,
      focus row 0 if the list was empty, and rebuild the merged buffer. */
  function AddContainer(s: AppState, id: string, name: string): (r: AppState)
    ensures HasId(s.containers, id) ==> r == s
    ensures !HasId(s.containers, id) ==>
      && multiset(r.containers) == multiset(s.containers) + multiset{Container(id, name, true, s.colorCounter)}
      && |r.containers| == |s.containers| + 1
      && SortedByName(r.containers)
      && r.colorCounter == s.colorCounter + 1
      && r.focus == (if |s.containers| == 0 then Some(0) else s.focus)
      && r.allFocused == s.allFocused
      && r.containerLogs == s.containerLogs && r.maxLogs == s.maxLogs
      && LogsRebuilt(r)
    ensures !HasId(s.containers, id) && SortedByName(s.containers) ==>
      r.containers == InsertByName(s.containers, Container(id, name, true, s.colorCounter))
    ensures HasId(r.containers, id)
    ensures r.showInfo == s.showInfo && r.infoText == s.infoText
    ensures Valid(s) ==> Valid(r)
  {
    if HasId(s.containers, id) then s
    else
      var c := Container(id, name, true, s.colorCounter);
      AddedRowFrame(s, c);
      AddedRowList(s, c);
      AddedRowValid(s, c);
      UpdateDisplayedLogs(AppendRow(s, c))
  }

  /** The rebuilt state after adding a row holds the list `AppendRow` built. */
  lemma AddedRowList(s: AppState, c: Container)
    requires !HasId(s.containers, c.id) && c.colorIndex == s.colorCounter
    ensures var r := UpdateDisplayedLogs(AppendRow(s, c));
      && multiset(r.containers) == multiset(s.containers) + multiset{c}
      && |r.containers| == |s.containers| + 1
      && SortedByName(r.containers)
      && (SortedByName(s.containers) ==> r.containers == InsertByName(s.containers, c))
      && HasId(r.containers, c.id)
  {
    var grown := AppendRow(s, c);
    assert UpdateDisplayedLogs(grown).containers == grown.containers;
    assert c in grown.containers;
  }

  /** Adding a row and rebuilding keeps the invariant and leaves the buffer
      rebuilt. */
  lemma AddedRowValid(s: AppState, c: Container)
    requires !HasId(s.containers, c.id) && c.colorIndex == s.colorCounter
    ensures var r := UpdateDisplayedLogs(AppendRow(s, c));
      && LogsRebuilt(r)
      && (Valid(s) ==> Valid(r))
  {
    AppendRowKeepsValid(s, c);
  }

  /** Adding a row and rebuilding changes only the list, the counter, the
      focus and the buffer. */
  lemma AddedRowFrame(s: AppState, c: Container)
    requires !HasId(s.containers, c.id) && c.colorIndex == s.colorCounter
    ensures var grown := AppendRow(s, c);
      var r := UpdateDisplayedLogs(grown);
      && r.containers == grown.containers && r.focus == grown.focus
      && r.colorCounter == s.colorCounter + 1
      && r.allFocused == s.allFocused && r.containerLogs == s.containerLogs && r.maxLogs == s.maxLogs
      && r.showInfo == s.showInfo && r.infoText == s.infoText
  {
  }

  lemma AppendRowKeepsValid(s: AppState, c: Container)
    requires !HasId(s.containers, c.id) && c.colorIndex == s.colorCounter
    ensures Valid(s) ==> Valid(AppendRow(s, c))
  {
    if Valid(s) {
      AddContainerValid(s, c);
      var r := AppendRow(s, c);
      assert r.containers == SortByName(s.containers + [c]);
      assert FocusInRange(r);
    }
  }

  /** The part of `add_container` before the rebuild: push the new row,
      sort by name, advance the colour counter, focus row 0 if it is the
      only row. */
  function AppendRow(s: AppState, c: Container): (r: AppState)
    requires !HasId(s.containers, c.id) && c.colorIndex == s.colorCounter
    ensures multiset(r.containers) == multiset(s.containers) + multiset{c}
    ensures |r.containers| == |s.containers| + 1
    ensures SortedByName(r.containers) && c in r.containers
    ensures r == s.(containers := r.containers, colorCounter := s.colorCounter + 1, focus := r.focus)
    ensures r.focus == (if |s.containers| == 0 then Some(0) else s.focus)
    ensures SortedByName(s.containers) ==> r.containers == InsertByName(s.containers, c)
  {
    var cs := SortByName(s.containers + [c]);
    SortAppendKeepsRows(s.containers, c);
    AddContainerValid(s, c);
    var s1 := s.(containers := cs, colorCounter := s.colorCounter + 1);
    if |cs| == 1 then s1.(focus := Some(0)) else s1
  }

  lemma AddContainerValid(s: AppState, c: Container)
    requires !HasId(s.containers, c.id) && c.colorIndex == s.colorCounter
    ensures Valid(s) ==> SortByName(s.containers + [c]) == InsertByName(s.containers, c)
    ensures Valid(s) ==> WellFormedList(SortByName(s.containers + [c]))
    ensures Valid(s) ==> ColorsBelow(SortByName(s.containers + [c]), s.colorCounter + 1)
    ensures SortedByName(s.containers) ==> SortByName(s.containers + [c]) == InsertByName(s.containers, c)
  {
    if SortedByName(s.containers) {
      SortAppendIsInsert(s.containers, c);
    }
    if Valid(s) {
      InsertKeepsWellFormed(s.containers, c);
      var cs := SortByName(s.containers + [c]);
      forall x | x in cs
        ensures x.colorIndex < s.colorCounter + 1
      {
        assert x in multiset(cs);
      }
    }
  }

  /** Moves a focused index that fell off the end of the list back onto the
      last row, and clears it when the list is empty. */
  function ClampFocus(s: AppState): (r: AppState)
    ensures r == s.(focus := r.focus)
    ensures FocusInRange(r)
    ensures |s.containers| == 0 ==> r.focus == None
    ensures FocusInRange(s) ==> r.focus == s.focus
    ensures |s.containers| > 0 && s.focus.Some? && s.focus.value >= |s.containers| ==>
      r.focus == Some(|s.containers| - 1)
  {
    if |s.containers| == 0 then
      assert FocusInRange(s) ==> s.focus == None;
      s.(focus := None)
    else match s.focus
      case Some(i) => if i >= |s.containers| then s.(focus := Some(|s.containers| - 1)) else s
      case None => s
  }

  /** The selection `remove_container` makes among the remaining rows after
      a row called `name` left: select that name's rows when some remain,
      else select everything. */
  predicate ReselectedAfterRemoval(rest: seq<Container>, after: seq<Container>, name: string)
    requires |rest| == |after|
  {
    if HasName(rest, name) then
      forall i :: 0 <= i < |rest| ==> after[i].selected == (rest[i].selected || rest[i].name == name)
    else AllSelected(after)
  }

  /** `remove_container(id)`. */
  function RemoveContainer(s: AppState, id: string): (r: AppState)
    ensures !HasId(r.containers, id)
    ensures SameRows(Retain(s.containers, id), r.containers)
    ensures HasId(s.containers, id) ==>
      var name := FindName(s.containers, id).value;
      && ReselectedAfterRemoval(Retain(s.containers, id), r.containers, name)
      && r.containerLogs == s.containerLogs - {name}
    ensures !HasId(s.containers, id) ==>
      r.containers == s.containers && r.containerLogs == s.containerLogs
    ensures FocusInRange(r)
    ensures |r.containers| == 0 ==> r.focus == None
    ensures s.focus.Some? && s.focus.value < |r.containers| ==> r.focus == s.focus
    ensures s.focus.Some? && |r.containers| > 0 && s.focus.value >= |r.containers| ==>
      r.focus == Some(|r.containers| - 1)
    ensures s.focus.None? ==> r.focus == None
    ensures r.allFocused == s.allFocused && r.colorCounter == s.colorCounter && r.maxLogs == s.maxLogs
    ensures r.showInfo == s.showInfo && r.infoText == s.infoText
    ensures LogsRebuilt(r)
    ensures Valid(s) ==> Valid(r)
  {
    UpdateDisplayedLogs(ClampFocus(DropRow(s, id)))
  }

  /** The part of `remove_container` before the focus clamp and rebuild:
      retain the other rows, re-select, and drop the ring of the removed
      row's name. */
  function DropRow(s: AppState, id: string): (r: AppState)
    ensures !HasId(r.containers, id)
    ensures SameRows(Retain(s.containers, id), r.containers)
    ensures HasId(s.containers, id) ==>
      var name := FindName(s.containers, id).value;
      && ReselectedAfterRemoval(Retain(s.containers, id), r.containers, name)
      && r.containerLogs == s.containerLogs - {name}
    ensures !HasId(s.containers, id) ==>
      r.containers == s.containers && r.containerLogs == s.containerLogs
    ensures r == s.(containers := r.containers, containerLogs := r.containerLogs, logs := r.logs)
    ensures WellFormedList(s.containers) ==> WellFormedList(r.containers)
    ensures ColorsBelow(s.containers, s.colorCounter) ==> ColorsBelow(r.containers, s.colorCounter)
    ensures RingsBounded(s.containerLogs, s.maxLogs) ==> RingsBounded(r.containerLogs, s.maxLogs)
  {
    var rest := Retain(s.containers, id);
    var s1 := s.(containers := rest);
    var s2 :=
      match FindName(s.containers, id)
      case None => s1
      case Some(name) =>
        var s3 := Reselect(s1, name);
        s3.(containerLogs := s3.containerLogs - {name});
    RemovalKeepsInvariants(s.containers, id, s2.containers, s.colorCounter);
    s2
  }

  /** The smart re-selection of `remove_container`, applied to the list
      that remains after a row called `name` left. */
  function Reselect(s: AppState, name: string): (r: AppState)
    ensures r == s.(containers := r.containers, logs := r.logs)
    ensures SameRows(s.containers, r.containers)
    ensures ReselectedAfterRemoval(s.containers, r.containers, name)
  {
    if HasName(s.containers, name) then s.(containers := SelectNamed(s.containers, name))
    else if |s.containers| > 0 then SelectAll(s)
    else s
  }

  lemma RemovalKeepsInvariants(cs: seq<Container>, id: string, after: seq<Container>, bound: nat)
    requires SameRows(Retain(cs, id), after)
    ensures !HasId(after, id)
    ensures WellFormedList(cs) ==> WellFormedList(after)
    ensures ColorsBelow(cs, bound) ==> ColorsBelow(after, bound)
  {
    var rest := Retain(cs, id);
    forall c | c in after
      ensures c.id != id && (ColorsBelow(cs, bound) ==> c.colorIndex < bound)
    {
      var i :| 0 <= i < |after| && after[i] == c;
      assert rest[i].(selected := c.selected) == c;
      assert rest[i] in rest;
    }
    if WellFormedList(cs) {
      RetainKeepsWellFormed(cs, id);
      SameRowsKeepsWellFormed(rest, after);
    }
  }

  // ------------------------------------------------------------- geometry

  /** `.map(|c| c.name.len()).max()`: the longest name in bytes, if any. */
  function MaxNameBytes(cs: seq<Container>): (r: Option<nat>)
    ensures r.None? <==> |cs| == 0
    ensures r.Some? ==> (forall c :: c in cs ==> ByteLen(c.name) <= r.value)
    ensures r.Some? ==> exists c :: c in cs && ByteLen(c.name) == r.value
    decreases |cs|
  {
    if |cs| == 0 then None
    else
      match MaxNameBytes(cs[1..])
      case None => Some(ByteLen(cs[0].name))
      case Some(m) => Some(if ByteLen(cs[0].name) > m then ByteLen(cs[0].name) else m)
  }

  /** `max_container_name_width`: the longest name in bytes, at least 20,
      cast to `u16` and plus 3. The cast truncates modulo 2^16, and the
      `u16` addition is taken to wrap (a release build; debug panics). */
  function MaxContainerNameWidth(cs: seq<Container>): (r: nat)
    ensures r < 0x1_0000
    ensures (forall c :: c in cs ==> ByteLen(c.name) < 0x1_0000 - 3) ==>
      && r >= 23
      && (forall c :: c in cs ==> ByteLen(c.name) + 3 <= r)
      && (r == 23 || exists c :: c in cs && ByteLen(c.name) + 3 == r)
    ensures var m := MaxNameBytes(cs).GetOr(20); r == ((if m > 20 then m else 20) + 3) % 0x1_0000
  {
    var m := MaxNameBytes(cs);
    var longest := m.GetOr(20);
    var atLeast20 := if longest > 20 then longest else 20;
    assert atLeast20 == 20 || exists c :: c in cs && ByteLen(c.name) == atLeast20;
    U16AddWraps(atLeast20, 3);
    U16(U16(atLeast20) + 3)
  }

  /** Adding after a `u16` cast wraps like adding before it. */
  lemma U16AddWraps(a: nat, b: nat)
    ensures (a % 0x1_0000 + b) % 0x1_0000 == (a + b) % 0x1_0000
  {
    var q := a / 0x1_0000;
    assert a == q * 0x1_0000 + a % 0x1_0000;
    assert a + b == q * 0x1_0000 + (a % 0x1_0000 + b);
  }

  /** An `as u16` cast, or a wrapping `u16` result. */
  function U16(x: nat): (r: nat)
    ensures r < 0x1_0000
    ensures x < 0x1_0000 ==> r == x
    ensures x >= 0x1_0000 ==> r < x
    ensures r == x % 0x1_0000
  {
    x % 0x1_0000
  }
}

=== FILE: app_laws.dfy ===
/** Laws relating the `AppState` operations to one another: the focus cycle,
    toggling twice, idempotence, and the invariants that hold after any
    sequence of operations. */
module AppLaws {
  import opened Wrappers
  import opened Containers
  import opened Rings
  import opened AppModel

  // ---------------------------------------------------------------- focus

  /** `n` presses of Down (`next`). */
  function NextN(s: AppState, n: nat): AppState
    decreases n
  {
    if n == 0 then s else Next(NextN(s, n - 1))
  }

  /** Starting from ALL on a non-empty list, the k-th `next` focuses row k-1
      and changes nothing but the focus. */
  lemma {:induction false} NextWalksDownTheList(s: AppState, k: nat)
    requires FocusInRange(s) && s.allFocused && 1 <= k <= |s.containers|
    ensures NextN(s, k) == s.(allFocused := false, focus := Some(k - 1))
    decreases k
  {
    if k > 1 {
      NextWalksDownTheList(s, k - 1);
    }
  }

  /** With N >= 1 containers, N+1 presses of `next` from ALL come back to ALL
      with the list index cleared, and change nothing else. */
  lemma NextCycleReturnsToAll(s: AppState)
    requires FocusInRange(s) && s.allFocused && |s.containers| >= 1
    ensures FocusedRow(NextN(s, |s.containers| + 1)) == AllRow
    ensures NextN(s, |s.containers| + 1) == s.(focus := None)
  {
    NextWalksDownTheList(s, |s.containers|);
  }

  /** With no containers, `next` from ALL leaves nothing focused, and a
      second `next` returns to ALL: one press does not complete the cycle. */
  lemma NextOnEmptyListFromAll(s: AppState)
    requires FocusInRange(s) && s.allFocused && |s.containers| == 0
    ensures FocusedRow(Next(s)) == NoRow
    ensures FocusedRow(Next(Next(s))) == AllRow
    ensures Next(Next(s)) == s
  {
  }

  /** `previous` undoes `next` on every focusable row. */
  lemma PreviousUndoesNext(s: AppState)
    requires FocusInRange(s) && FocusedRow(s) != NoRow
    ensures FocusedRow(Previous(Next(s))) == FocusedRow(s)
  {
  }

  /** `next` undoes `previous`, except from ALL on an empty list (where
      `previous` stays on ALL and `next` then leaves it). */
  lemma NextUndoesPrevious(s: AppState)
    requires FocusInRange(s) && FocusedRow(s) != NoRow
    requires |s.containers| > 0 || !s.allFocused
    ensures FocusedRow(Next(Previous(s))) == FocusedRow(s)
  {
  }

  /** `previous` from ALL: nothing on an empty list, the last row otherwise. */
  lemma PreviousFromAll(s: AppState)
    requires s.allFocused
    ensures |s.containers| == 0 ==> Previous(s) == s
    ensures |s.containers| > 0 ==> FocusedRow(Previous(s)) == ListRow(|s.containers| - 1)
  {
  }

  /** The first container attached while ALL is focused also sets the list
      index to 0, so both focus marks are on at once. */
  lemma FirstContainerFocusesBoth(s: AppState, id: string, name: string)
    requires s.allFocused && |s.containers| == 0
    ensures AddContainer(s, id, name).allFocused
    ensures AddContainer(s, id, name).focus == Some(0)
  {
    assert !HasId(s.containers, id);
  }

  // ------------------------------------------------------------ selection

  /** Toggling the same in-range row twice restores every flag and leaves
      the merged buffer rebuilt from the original selection; so a state
      whose buffer was already the rebuilt view comes back unchanged. */
  lemma ToggleRowTwice(s: AppState)
    requires !s.allFocused && s.focus.Some? && s.focus.value < |s.containers|
    ensures ToggleSelected(ToggleSelected(s)) == s.(logs := Tail(MergedSource(s), s.maxLogs))
    ensures LogsRebuilt(s) ==> ToggleSelected(ToggleSelected(s)) == s
  {
    var i := s.focus.value;
    ToggleRowIsFlip(s);
    var t := ToggleSelected(s);
    ToggleRowIsFlip(t);
    FlipRowTwice(s, i, t.logs);
    UpdateIgnoresOldLogs(s, t.logs);
  }

  /** Flipping the same row twice restores the state. */
  lemma FlipRowTwice(s: AppState, i: nat, logs: seq<string>)
    requires i < |s.containers|
    ensures FlipRow(FlipRow(s, i).(logs := logs), i) == s.(logs := logs)
  {
    var c := s.containers[i];
    assert s.containers[i := c.(selected := !c.selected)][i := c] == s.containers;
  }

  /** The rebuild does not depend on what the merged buffer held before. */
  lemma UpdateIgnoresOldLogs(s: AppState, logs: seq<string>)
    ensures UpdateDisplayedLogs(s.(logs := logs)) == UpdateDisplayedLogs(s)
  {
  }

  /** With an in-range row focused, `toggle_selected` flips that row and
      rebuilds. */
  lemma ToggleRowIsFlip(s: AppState)
    requires !s.allFocused && s.focus.Some? && s.focus.value < |s.containers|
    ensures ToggleSelected(s) == UpdateDisplayedLogs(FlipRow(s, s.focus.value))
    ensures ToggleSelected(s).focus == s.focus && !ToggleSelected(s).allFocused
    ensures ToggleSelected(s).containers
      == s.containers[s.focus.value := s.containers[s.focus.value].(selected := !s.containers[s.focus.value].selected)]
  {
  }

  /** Two rows listing the same selected rows (flags included) are equal. */
  lemma AllSelectedSameRowsEqual(a: seq<Container>, b: seq<Container>, c: seq<Container>)
    requires SameRows(a, b) && SameRows(a, c) && AllSelected(b) && AllSelected(c)
    ensures b == c
  {
    forall i | 0 <= i < |b|
      ensures b[i] == c[i]
    {
      assert b[i] in b && c[i] in c;
      assert a[i].(selected := b[i].selected) == b[i];
      assert a[i].(selected := c[i].selected) == c[i];
    }
  }

  /** `select_all(); select_all()` is the same as one `select_all()`. */
  lemma SelectAllIdempotent(s: AppState)
    ensures SelectAll(SelectAll(s)) == SelectAll(s)
  {
    var t := SelectAll(s);
    var u := SelectAll(t);
    forall i | 0 <= i < |u.containers|
      ensures s.containers[i].(selected := u.containers[i].selected) == u.containers[i]
    {
      assert s.containers[i].(selected := t.containers[i].selected) == t.containers[i];
      assert t.containers[i].(selected := u.containers[i].selected) == u.containers[i];
    }
    AllSelectedSameRowsEqual(s.containers, t.containers, u.containers);
  }

  /** After `select_all`, whatever came before, the merged buffer is the
      newest `max_logs` lines of every ring, in list (name) order. */
  lemma SelectAllShowsEveryRing(s: AppState)
    ensures SelectAll(s).logs == Tail(Gather(AllNames(s.containers), s.containerLogs), s.maxLogs)
    ensures |SelectAll(s).logs| <= s.maxLogs
  {
  }

  /** `deselect_all` empties the merged buffer. */
  lemma DeselectAllShowsNothing(s: AppState)
    ensures DeselectAll(s).logs == []
    ensures DeselectAll(DeselectAll(s)) == DeselectAll(s)
  {
    var t := DeselectAll(s);
    var u := DeselectAll(t);
    forall i | 0 <= i < |u.containers|
      ensures u.containers[i] == t.containers[i]
    {
      assert t.containers[i] in t.containers && u.containers[i] in u.containers;
      assert t.containers[i].(selected := u.containers[i].selected) == u.containers[i];
    }
  }

  // ---------------------------------------------------------- membership

  /** `add_container(id, name)` twice is the same as once. */
  lemma AddContainerIdempotent(s: AppState, id: string, name: string)
    ensures AddContainer(AddContainer(s, id, name), id, name) == AddContainer(s, id, name)
  {
  }

  /** The row a fresh `add_container` creates has a colour index above every
      colour already in use: colour indices increase strictly in attach
      order and are never reused. */
  lemma AddContainerColorIsNewest(s: AppState, id: string, name: string)
    requires Valid(s) && !HasId(s.containers, id)
    ensures var r := AddContainer(s, id, name);
      && Container(id, name, true, s.colorCounter) in r.containers
      && (forall c :: c in s.containers ==> c.colorIndex < s.colorCounter)
      && Valid(r) && r.colorCounter == s.colorCounter + 1
  {
  }

  // ------------------------------------------------- rings keyed by name

  /** A reference reading of the rebuild: walk the rows front to back and,
      for each selected row, append the ring stored under its name. */
  function RowRings(cs: seq<Container>, m: map<string, seq<string>>): seq<string>
    decreases |cs|
  {
    if |cs| == 0 then []
    else (if cs[0].selected && cs[0].name in m then m[cs[0].name] else []) + RowRings(cs[1..], m)
  }

  lemma {:induction false} RowRingsSnoc(cs: seq<Container>, c: Container, m: map<string, seq<string>>)
    ensures RowRings(cs + [c], m) == RowRings(cs, m) + (if c.selected && c.name in m then m[c.name] else [])
    decreases |cs|
  {
    var own := if c.selected && c.name in m then m[c.name] else [];
    if |cs| == 0 {
      assert cs + [c] == [c] && [c][1..] == [];
    } else {
      var head := if cs[0].selected && cs[0].name in m then m[cs[0].name] else [];
      assert (cs + [c])[0] == cs[0] && (cs + [c])[1..] == cs[1..] + [c];
      RowRingsSnoc(cs[1..], c, m);
      assert head + (RowRings(cs[1..], m) + own) == (head + RowRings(cs[1..], m)) + own;
    }
  }

  /** The merged source is the per-row reading: one copy of a ring for
      every selected row carrying its name, in list order. */
  lemma {:induction false} MergedSourceIsPerRow(cs: seq<Container>, m: map<string, seq<string>>)
    ensures Gather(SelectedNames(cs), m) == RowRings(cs, m)
    decreases |cs|
  {
    if |cs| > 0 {
      var init, last := cs[..|cs| - 1], cs[|cs| - 1];
      var own := if last.selected && last.name in m then m[last.name] else [];
      MergedSourceIsPerRow(init, m);
      assert Gather(SelectedNames(cs), m) == Gather(SelectedNames(init), m) + own by {
        GatherSelectedSnoc(cs, m);
      }
      assert cs == init + [last];
      RowRingsSnoc(init, last, m);
    }
  }

  lemma GatherSelectedSnoc(cs: seq<Container>, m: map<string, seq<string>>)
    requires |cs| > 0
    ensures var last := cs[|cs| - 1];
      Gather(SelectedNames(cs), m)
        == Gather(SelectedNames(cs[..|cs| - 1]), m) + (if last.selected && last.name in m then m[last.name] else [])
  {
    var init, last := cs[..|cs| - 1], cs[|cs| - 1];
    var front := SelectedNames(init);
    if last.selected {
      assert SelectedNames(cs) == front + [last.name];
      GatherSnoc(front, last.name, m);
    } else {
      assert SelectedNames(cs) == front + [];
      assert front + [] == front;
    }
  }

  lemma GatherSnoc(names: seq<string>, n: string, m: map<string, seq<string>>)
    ensures Gather(names + [n], m) == Gather(names, m) + (if n in m then m[n] else [])
  {
    var all := names + [n];
    assert all[..|all| - 1] == names && all[|all| - 1] == n;
  }

  /** Two selected rows with different names: the rebuild lists the first
      row's whole ring, then the second's, whatever order the lines came
      in. */
  lemma RebuildGroupsByRow(s: AppState, a: Container, b: Container)
    requires s.containers == [a, b] && a.selected && b.selected
    ensures MergedSource(s) == RingOf(s, a.name) + RingOf(s, b.name)
  {
    var m := s.containerLogs;
    MergedSourceIsPerRow(s.containers, m);
    assert s.containers[1..] == [b] && [b][1..] == [];
    assert RowRings([b], m) == RingOf(s, b.name) + [];
    assert RingOf(s, b.name) + [] == RingOf(s, b.name);
  }

  /** Two selected rows with the same name read the one ring kept under
      that name, so its lines appear twice in the merged source. */
  lemma TwinsShowTheirRingTwice(s: AppState, a: Container, b: Container)
    requires s.containers == [a, b] && a.name == b.name && a.selected && b.selected
    ensures MergedSource(s) == RingOf(s, a.name) + RingOf(s, a.name)
  {
    RebuildGroupsByRow(s, a, b);
  }

  /** Removing one of two rows that share a name drops the shared ring: the
      other row stays listed and selected, but has no lines until new ones
      arrive. */
  lemma RemovingOneTwinDropsSharedRing(s: AppState, i: nat, j: nat)
    requires UniqueIds(s.containers) && i < |s.containers| && j < |s.containers| && i != j
    requires s.containers[i].name == s.containers[j].name
    ensures var r := RemoveContainer(s, s.containers[i].id);
      var name := s.containers[j].name;
      && IsContainerSelected(r.containers, name)
      && name !in r.containerLogs && RingOf(r, name) == []
  {
    var cs, id, name := s.containers, s.containers[i].id, s.containers[j].name;
    var rest := Retain(cs, id);
    assert HasId(cs, id) && FindName(cs, id) == Some(name) by {
      assert cs[i] in cs;
      FindNameOfRow(cs, i);
    }
    assert exists k :: 0 <= k < |rest| && rest[k].name == name by {
      assert cs[j] in cs && cs[j].id != id;
      assert cs[j] in rest;
    }
    var k :| 0 <= k < |rest| && rest[k].name == name;
    var r := RemoveContainer(s, id);
    TwinStaysSelected(rest, r.containers, name, k);
  }

  /** After the re-selection, a remaining row with the removed row's name is
      selected. */
  lemma TwinStaysSelected(rest: seq<Container>, after: seq<Container>, name: string, k: nat)
    requires SameRows(rest, after) && ReselectedAfterRemoval(rest, after, name)
    requires k < |rest| && rest[k].name == name
    ensures IsContainerSelected(after, name)
  {
    assert rest[k] in rest;
    assert rest[k].(selected := after[k].selected) == after[k];
    assert after[k].selected;
    assert after[k] in after;
  }

  /** `add_log` repeated over a run of lines for one name keeps exactly the
      newest `max_logs` of them in that name's ring. */
  function AddLogs(s: AppState, name: string, lines: seq<string>): AppState
    decreases |lines|
  {
    if |lines| == 0 then s else AddLogs(AddLog(s, name, lines[0]), name, lines[1..])
  }

  lemma {:induction false} AddLogsKeepNewest(s: AppState, name: string, lines: seq<string>)
    requires |RingOf(s, name)| <= s.maxLogs
    ensures RingOf(AddLogs(s, name, lines), name) == Tail(RingOf(s, name) + lines, s.maxLogs)
    ensures AddLogs(s, name, lines).maxLogs == s.maxLogs
    decreases |lines|
  {
    if |lines| > 0 {
      var ring := RingOf(s, name);
      var t := AddLog(s, name, lines[0]);
      assert t.maxLogs == s.maxLogs;
      assert RingOf(t, name) == Tail(ring + [lines[0]], s.maxLogs);
      AddLogsKeepNewest(t, name, lines[1..]);
      TailOfTailAppend(ring + [lines[0]], lines[1..], s.maxLogs);
      AppendFirstRest(ring, lines);
    }
  }

  /** With `max_logs` 3, five lines into an empty ring leave the last three. */
  lemma FiveLinesIntoThreeSlots(s: AppState, name: string)
    requires s.maxLogs == 3 && name !in s.containerLogs
    ensures RingOf(AddLogs(s, name, ["L1", "L2", "L3", "L4", "L5"]), name) == ["L3", "L4", "L5"]
  {
    AddLogsKeepNewest(s, name, ["L1", "L2", "L3", "L4", "L5"]);
    assert [] + ["L1", "L2", "L3", "L4", "L5"] == ["L1", "L2", "L3", "L4", "L5"];
  }

  // -------------------------------------------------- any operation sequence

  /** The operations the input loop and the log tasks apply to the state. */
  datatype Op =
    | NextOp | PreviousOp | ToggleOp | SelectAllOp | DeselectAllOp
    | AddLogOp(name: string, line: string)
    | AddContainerOp(id: string, containerName: string)
    | RemoveContainerOp(removedId: string)

  function Step(s: AppState, op: Op): (r: AppState)
    ensures Valid(s) ==> Valid(r)
    ensures r.maxLogs == s.maxLogs
  {
    match op
    case NextOp => Next(s)
    case PreviousOp => Previous(s)
    case ToggleOp => ToggleSelected(s)
    case SelectAllOp => SelectAll(s)
    case DeselectAllOp => DeselectAll(s)
    case AddLogOp(name, line) =>
      AddLogKeepsValid(s, name, line);
      AddLog(s, name, line)
    case AddContainerOp(id, name) => AddContainer(s, id, name)
    case RemoveContainerOp(id) => RemoveContainer(s, id)
  }

  function Run(s: AppState, ops: seq<Op>): AppState
    decreases |ops|
  {
    if |ops| == 0 then s else Run(Step(s, ops[0]), ops[1..])
  }

  /** Whatever the interleaving of key presses, log lines and container
      arrivals and departures, a session that starts from `AppState::new`
      keeps every invariant: the list sorted by name with unique ids and
      unique colours, every ring and the merged buffer within `max_logs`,
      and the focused index in range. */
  lemma {:induction false} RunKeepsValid(s: AppState, ops: seq<Op>)
    requires Valid(s)
    ensures Valid(Run(s, ops))
    ensures Run(s, ops).maxLogs == s.maxLogs
    decreases |ops|
  {
    if |ops| > 0 {
      RunKeepsValid(Step(s, ops[0]), ops[1..]);
    }
  }

  lemma SessionKeepsValid(maxLogs: nat, ops: seq<Op>)
    ensures Valid(Run(New(maxLogs), ops))
    ensures |Run(New(maxLogs), ops).logs| <= maxLogs
  {
    RunKeepsValid(New(maxLogs), ops);
  }
}

=== FILE: containers.dfy ===
/** The container list of the TUI: its entries, the by-name order it is kept
    in, the stable sort that `add_container` applies, and the queries the
    state machine and the renderer ask of it (tui.rs, `ContainerInfo` and
    the iterator pipelines over `containers`). */
module Containers {
  import opened Wrappers
  import opened Names

  /** One row of the list: runtime id, display name, whether its lines are
      shown, and the palette slot it was given when attached. */
  datatype Container = Container(id: string, name: string, selected: bool, colorIndex: nat)

  predicate SortedByName(cs: seq<Container>) {
    forall i, j :: 0 <= i < j < |cs| ==> NameLe(cs[i].name, cs[j].name)
  }

  predicate UniqueIds(cs: seq<Container>) {
    forall i, j :: 0 <= i < j < |cs| ==> cs[i].id != cs[j].id
  }

  predicate UniqueColors(cs: seq<Container>) {
    forall i, j :: 0 <= i < j < |cs| ==> cs[i].colorIndex != cs[j].colorIndex
  }

  predicate ColorsBelow(cs: seq<Container>, bound: nat) {
    forall c :: c in cs ==> c.colorIndex < bound
  }

  /** The three list invariants together. */
  predicate WellFormedList(cs: seq<Container>) {
    SortedByName(cs) && UniqueIds(cs) && UniqueColors(cs)
  }

  /** Two lists hold the same rows (ids, names, colours) in the same order;
      only the `selected` flags may differ. */
  predicate SameRows(a: seq<Container>, b: seq<Container>) {
    && |a| == |b|
    && forall i :: 0 <= i < |a| ==> a[i].(selected := b[i].selected) == b[i]
  }

  lemma SameRowsKeepsWellFormed(a: seq<Container>, b: seq<Container>)
    requires SameRows(a, b) && WellFormedList(a)
    ensures WellFormedList(b)
  {
    forall i, j | 0 <= i < j < |b|
      ensures NameLe(b[i].name, b[j].name)
      ensures b[i].id != b[j].id && b[i].colorIndex != b[j].colorIndex
    {
      assert a[i].(selected := b[i].selected) == b[i];
      assert a[j].(selected := b[j].selected) == b[j];
    }
  }

  /** Where the backward scan of an insertion sort leaves `c`: after every
      entry whose name is not greater than `c.name`, counting from the end. */
  function InsertIndex(xs: seq<Container>, c: Container): (k: nat)
    ensures k <= |xs|
    ensures forall j :: k <= j < |xs| ==> !NameLe(xs[j].name, c.name)
    ensures k > 0 ==> NameLe(xs[k - 1].name, c.name)
    decreases |xs|
  {
    if |xs| == 0 then 0
    else if !NameLe(xs[|xs| - 1].name, c.name) then InsertIndex(xs[..|xs| - 1], c)
    else |xs|
  }

  /** On a sorted list, every row before the insertion point sorts no later
      than the new row (on an unsorted list only the row just before it is
      known to). */
  lemma InsertIndexOnSorted(xs: seq<Container>, c: Container)
    requires SortedByName(xs)
    ensures forall j :: 0 <= j < InsertIndex(xs, c) ==> NameLe(xs[j].name, c.name)
  {
    var k := InsertIndex(xs, c);
    if k > 0 {
      forall j | 0 <= j < k
        ensures NameLe(xs[j].name, c.name)
      {
        if j < k - 1 {
          NameLeTransitive(xs[j].name, xs[k - 1].name, c.name);
        }
      }
    }
  }

  /** One step of a stable insertion sort by name: `c` moves left past every
      trailing entry whose name is strictly greater, and stops behind the
      first one that is not (so it lands after entries with an equal name). */
  function InsertByName(xs: seq<Container>, c: Container): (r: seq<Container>)
    ensures r == xs[..InsertIndex(xs, c)] + [c] + xs[InsertIndex(xs, c)..]
    decreases |xs|
  {
    if |xs| == 0 then [c]
    else if !NameLe(xs[|xs| - 1].name, c.name) then
      var front, last := xs[..|xs| - 1], xs[|xs| - 1];
      var k := InsertIndex(front, c);
      assert xs == front + [last];
      assert front[..k] == xs[..k];
      assert front[k..] + [last] == xs[k..];
      InsertByName(front, c) + [last]
    else
      assert xs[..|xs|] == xs && xs[|xs|..] == [];
      xs + [c]
  }

  lemma InsertByNameMultiset(xs: seq<Container>, c: Container)
    ensures multiset(InsertByName(xs, c)) == multiset(xs) + multiset{c}
  {
    SpliceMultiset(xs, InsertIndex(xs, c), c);
  }

  lemma SpliceMultiset<T>(xs: seq<T>, k: nat, x: T)
    requires k <= |xs|
    ensures multiset(xs[..k] + [x] + xs[k..]) == multiset(xs) + multiset{x}
  {
    MultisetOfSplice(xs[..k], x, xs[k..]);
    assert xs[..k] + xs[k..] == xs;
  }

  lemma MultisetOfSplice<T>(a: seq<T>, x: T, b: seq<T>)
    ensures multiset(a + [x] + b) == multiset(a + b) + multiset{x}
  {
  }

  /** Where each entry of `xs` ends up after inserting `c`. */
  lemma InsertByNameIndices(xs: seq<Container>, c: Container)
    ensures var k, r := InsertIndex(xs, c), InsertByName(xs, c);
      && |r| == |xs| + 1
      && r[k] == c
      && (forall i :: 0 <= i < k ==> r[i] == xs[i])
      && (forall i :: k < i < |r| ==> r[i] == xs[i - 1])
  {
    var k, r := InsertIndex(xs, c), InsertByName(xs, c);
    var a, b := xs[..k], xs[k..];
    var ac := a + [c];
    assert |a| == k && |ac| == k + 1 && |b| == |xs| - k;
    assert r == ac + b;
    assert r[k] == ac[k] == c;
    forall i | 0 <= i < k
      ensures r[i] == xs[i]
    {
      assert r[i] == ac[i] == a[i];
    }
    forall i | k < i < |r|
      ensures r[i] == xs[i - 1]
    {
      assert r[i] == b[i - k - 1];
    }
  }

  lemma InsertByNameSorted(xs: seq<Container>, c: Container)
    requires SortedByName(xs)
    ensures SortedByName(InsertByName(xs, c))
  {
    var k := InsertIndex(xs, c);
    var r := InsertByName(xs, c);
    forall i | 0 <= i < k
      ensures NameLe(xs[i].name, c.name)
    {
      if i < k - 1 {
        NameLeTransitive(xs[i].name, xs[k - 1].name, c.name);
      }
    }
    forall j | k <= j < |xs|
      ensures NameLe(c.name, xs[j].name)
    {
      NameLeTotal(c.name, xs[j].name);
    }
    InsertByNameIndices(xs, c);
    forall i, j | 0 <= i < j < |r|
      ensures NameLe(r[i].name, r[j].name)
    {
      if j < k || k < i {
        var i' := if i < k then i else i - 1;
        var j' := if j < k then j else j - 1;
        assert r[i] == xs[i'] && r[j] == xs[j'];
      } else if j == k {
        assert r[i] == xs[i];
      } else if i == k {
        assert r[j] == xs[j - 1];
      } else {
        assert r[i] == xs[i] && r[j] == xs[j - 1];
      }
    }
  }

  /** `c` is a new row: its id and its colour occur nowhere in `xs`. */
  predicate FreshRow(xs: seq<Container>, c: Container) {
    forall x :: x in xs ==> x.id != c.id && x.colorIndex != c.colorIndex
  }

  lemma InsertKeepsWellFormed(xs: seq<Container>, c: Container)
    requires WellFormedList(xs) && FreshRow(xs, c)
    ensures WellFormedList(InsertByName(xs, c))
  {
    InsertByNameSorted(xs, c);
    var k := InsertIndex(xs, c);
    var r := InsertByName(xs, c);
    InsertByNameIndices(xs, c);
    forall i, j | 0 <= i < j < |r|
      ensures r[i].id != r[j].id && r[i].colorIndex != r[j].colorIndex
    {
      if i == k {
        assert r[j] == xs[j - 1];
      } else if j == k {
        assert r[i] == xs[i];
      } else {
        var i' := if i < k then i else i - 1;
        var j' := if j < k then j else j - 1;
        assert r[i] == xs[i'] && r[j] == xs[j'];
      }
    }
  }

  /** The stable sort `sort_by(|a, b| a.name.cmp(&b.name))`, written as an
      insertion sort. A stable sort has exactly one possible output, so any
      stable sort by name agrees with this one. */
  function SortByName(xs: seq<Container>): (r: seq<Container>)
    ensures SortedByName(r)
    ensures multiset(r) == multiset(xs)
    decreases |xs|
  {
    if |xs| == 0 then []
    else
      var front := xs[..|xs| - 1];
      assert xs == front + [xs[|xs| - 1]];
      InsertByNameSorted(SortByName(front), xs[|xs| - 1]);
      InsertByNameMultiset(SortByName(front), xs[|xs| - 1]);
      InsertByName(SortByName(front), xs[|xs| - 1])
  }

  /** Sorting a list with one row appended keeps that row and every other. */
  lemma SortAppendKeepsRows(xs: seq<Container>, c: Container)
    ensures var r := SortByName(xs + [c]);
      && multiset(r) == multiset(xs) + multiset{c}
      && |r| == |xs| + 1 && c in r
  {
    var r := SortByName(xs + [c]);
    assert multiset(xs + [c]) == multiset(xs) + multiset{c};
    assert |r| == |multiset(r)| == |xs + [c]|;
    assert c in multiset(r);
  }

  /** Sorting a list that is already in order changes nothing. */
  lemma {:induction false} SortSortedIsIdentity(xs: seq<Container>)
    requires SortedByName(xs)
    ensures SortByName(xs) == xs
    decreases |xs|
  {
    if |xs| > 0 {
      var front := xs[..|xs| - 1];
      SortSortedIsIdentity(front);
      assert xs == front + [xs[|xs| - 1]];
    }
  }

  /** Appending a row to a sorted list and sorting it inserts the row after
      every entry whose name is not greater than its own. */
  lemma SortAppendIsInsert(xs: seq<Container>, c: Container)
    requires SortedByName(xs)
    ensures SortByName(xs + [c]) == InsertByName(xs, c)
  {
    assert (xs + [c])[..|xs + [c]| - 1] == xs;
    SortSortedIsIdentity(xs);
  }

  predicate HasId(cs: seq<Container>, id: string) {
    exists c :: c in cs && c.id == id
  }

  /** With unique ids, looking up a row's id finds that row's name. */
  lemma FindNameOfRow(cs: seq<Container>, i: nat)
    requires UniqueIds(cs) && i < |cs|
    ensures FindName(cs, cs[i].id) == Some(cs[i].name)
  {
    var found := FindName(cs, cs[i].id);
    assert cs[i] in cs;
    var c :| c in cs && c.id == cs[i].id && c.name == found.value;
    var k :| 0 <= k < |cs| && cs[k] == c;
    assert k == i;
  }

  /** `containers.iter().find(|c| c.id == id).map(|c| c.name.clone())`. */
  function FindName(cs: seq<Container>, id: string): (r: Option<string>)
    ensures r.None? <==> !HasId(cs, id)
    ensures r.Some? ==> exists c :: c in cs && c.id == id && c.name == r.value
    decreases |cs|
  {
    if |cs| == 0 then None
    else if cs[0].id == id then Some(cs[0].name)
    else FindName(cs[1..], id)
  }

  /** `containers.retain(|c| c.id != id)`. */
  function Retain(cs: seq<Container>, id: string): (r: seq<Container>)
    ensures forall c :: c in r <==> c in cs && c.id != id
    ensures |r| <= |cs|
    ensures !HasId(cs, id) ==> r == cs
    decreases |cs|
  {
    if |cs| == 0 then []
    else if cs[0].id == id then Retain(cs[1..], id)
    else [cs[0]] + Retain(cs[1..], id)
  }

  /** `retain` keeps the survivors in their original order: filtering a
      concatenation filters each part in turn. */
  lemma {:induction false} RetainAppend(a: seq<Container>, b: seq<Container>, id: string)
    ensures Retain(a + b, id) == Retain(a, id) + Retain(b, id)
    decreases |a|
  {
    if |a| == 0 {
      assert a + b == b;
    } else {
      assert (a + b)[0] == a[0];
      assert (a + b)[1..] == a[1..] + b;
      RetainAppend(a[1..], b, id);
    }
  }

  /** With unique ids, removing the row at index k leaves exactly the rows
      before it followed by the rows after it. */
  lemma RetainRemovesOneRow(cs: seq<Container>, id: string, k: nat)
    requires UniqueIds(cs) && k < |cs| && cs[k].id == id
    ensures Retain(cs, id) == cs[..k] + cs[k + 1..]
  {
    var before, after := cs[..k], cs[k + 1..];
    IdOnlyAt(cs, id, k);
    RetainAroundRow(before, cs[k], after, id);
    SplitAtRow(cs, k);
  }

  lemma SplitAtRow(cs: seq<Container>, k: nat)
    requires k < |cs|
    ensures cs[..k] + [cs[k]] + cs[k + 1..] == cs
  {
  }

  lemma RetainAroundRow(before: seq<Container>, x: Container, after: seq<Container>, id: string)
    requires !HasId(before, id) && !HasId(after, id) && x.id == id
    ensures Retain(before + [x] + after, id) == before + after
  {
    RetainAppend(before + [x], after, id);
    RetainAppend(before, [x], id);
    assert Retain([x], id) == [];
    assert before + [] == before;
  }

  /** With unique ids, the row at index k is the only one carrying its id. */
  lemma IdOnlyAt(cs: seq<Container>, id: string, k: nat)
    requires UniqueIds(cs) && k < |cs| && cs[k].id == id
    ensures !HasId(cs[..k], id) && !HasId(cs[k + 1..], id)
  {
    var before, after := cs[..k], cs[k + 1..];
    assert forall i :: 0 <= i < |before| ==> before[i] == cs[i];
    assert forall i :: 0 <= i < |after| ==> after[i] == cs[k + 1 + i];
  }

  /** `x` may stand in front of `c` in a well-formed list. */
  predicate MayPrecede(x: Container, c: Container) {
    NameLe(x.name, c.name) && x.id != c.id && x.colorIndex != c.colorIndex
  }

  lemma HeadMayPrecedeTail(cs: seq<Container>)
    requires WellFormedList(cs) && |cs| > 0
    ensures forall c :: c in cs[1..] ==> MayPrecede(cs[0], c)
  {
    forall c | c in cs[1..]
      ensures MayPrecede(cs[0], c)
    {
      var k :| 0 <= k < |cs[1..]| && cs[1..][k] == c;
      assert cs[k + 1] == c;
    }
  }

  lemma ConsWellFormed(x: Container, t: seq<Container>)
    requires WellFormedList(t)
    requires forall c :: c in t ==> MayPrecede(x, c)
    ensures WellFormedList([x] + t)
  {
    var r := [x] + t;
    forall i, j | 0 <= i < j < |r|
      ensures MayPrecede(r[i], r[j])
    {
      if i == 0 {
        assert r[j] == t[j - 1];
        assert r[j] in t;
      } else {
        assert r[i] == t[i - 1] && r[j] == t[j - 1];
      }
    }
  }

  lemma {:induction false} RetainKeepsWellFormed(cs: seq<Container>, id: string)
    requires WellFormedList(cs)
    ensures WellFormedList(Retain(cs, id))
    decreases |cs|
  {
    if |cs| > 0 {
      assert WellFormedList(cs[1..]);
      RetainKeepsWellFormed(cs[1..], id);
      if cs[0].id != id {
        HeadMayPrecedeTail(cs);
        ConsWellFormed(cs[0], Retain(cs[1..], id));
      }
    }
  }

  /** Every row with `selected` forced to `b` (the loops of `select_all` and
      `deselect_all`). */
  function SetSelected(cs: seq<Container>, b: bool): (r: seq<Container>)
    ensures SameRows(cs, r)
    ensures forall c :: c in r ==> c.selected == b
    decreases |cs|
  {
    if |cs| == 0 then [] else [cs[0].(selected := b)] + SetSelected(cs[1..], b)
  }

  /** Every row called `name` becomes selected; the others keep their flag. */
  function SelectNamed(cs: seq<Container>, name: string): (r: seq<Container>)
    ensures SameRows(cs, r)
    ensures forall i :: 0 <= i < |r| ==> r[i].selected == (cs[i].selected || cs[i].name == name)
    decreases |cs|
  {
    if |cs| == 0 then []
    else [cs[0].(selected := cs[0].selected || cs[0].name == name)] + SelectNamed(cs[1..], name)
  }

  predicate HasName(cs: seq<Container>, name: string) {
    exists c :: c in cs && c.name == name
  }

  /** `is_container_selected`: some row with this name is selected. */
  predicate IsContainerSelected(cs: seq<Container>, name: string) {
    exists c :: c in cs && c.name == name && c.selected
  }

  predicate AllSelected(cs: seq<Container>) {
    forall c :: c in cs ==> c.selected
  }

  /** `selected_count`: the number of selected rows. */
  function SelectedCount(cs: seq<Container>): (n: nat)
    ensures n <= |cs|
    decreases |cs|
  {
    if |cs| == 0 then 0
    else (if cs[0].selected then 1 else 0) + SelectedCount(cs[1..])
  }

  /** No row selected exactly when the count is 0, every row exactly when
      it is the list's length. */
  lemma {:induction false} SelectedCountExtremes(cs: seq<Container>)
    ensures SelectedCount(cs) == 0 <==> forall c :: c in cs ==> !c.selected
    ensures SelectedCount(cs) == |cs| <==> AllSelected(cs)
    decreases |cs|
  {
    if |cs| > 0 {
      SelectedCountExtremes(cs[1..]);
      assert forall c :: c in cs <==> c == cs[0] || c in cs[1..];
    }
  }

  /** The names of the selected rows in list order (the `filter`/`map`/
      `collect` at the top of `update_displayed_logs`). Recursion peels the
      last row so that it follows a left-to-right loop. */
  function SelectedNames(cs: seq<Container>): (r: seq<string>)
    ensures |r| == SelectedCount(cs)
    decreases |cs|
  {
    if |cs| == 0 then []
    else
      var last := cs[|cs| - 1];
      SelectedCountSplit(cs);
      SelectedNames(cs[..|cs| - 1]) + (if last.selected then [last.name] else [])
  }

  /** A name is listed exactly when some row carrying it is selected. */
  lemma {:induction false} SelectedNamesMembers(cs: seq<Container>)
    ensures forall n :: n in SelectedNames(cs) <==> IsContainerSelected(cs, n)
    decreases |cs|
  {
    if |cs| > 0 {
      var init, last := cs[..|cs| - 1], cs[|cs| - 1];
      SelectedNamesMembers(init);
      assert forall c :: c in cs <==> c in init || c == last by {
        assert cs == init + [last];
      }
    }
  }

  lemma {:induction false} SelectedCountSplit(cs: seq<Container>)
    requires |cs| > 0
    ensures SelectedCount(cs) == SelectedCount(cs[..|cs| - 1]) + (if cs[|cs| - 1].selected then 1 else 0)
    decreases |cs|
  {
    var init := cs[..|cs| - 1];
    if |cs| > 1 {
      var h := if cs[0].selected then 1 else 0;
      assert init[0] == cs[0];
      assert SelectedCount(init) == h + SelectedCount(init[1..]);
      SelectedCountSplit(cs[1..]);
      assert cs[1..][..|cs[1..]| - 1] == init[1..];
      assert cs[1..][|cs[1..]| - 1] == cs[|cs| - 1];
    } else {
      assert init == [] && cs[1..] == [];
    }
  }

  /** The indices of the selected rows. */
  function SelectedRows(cs: seq<Container>): set<int> {
    set i | 0 <= i < |cs| && cs[i].selected
  }

  /** `selected_count` is the number of selected rows, counted by index. */
  lemma {:induction false} SelectedCountIsRowCount(cs: seq<Container>)
    ensures SelectedCount(cs) == |SelectedRows(cs)|
    decreases |cs|
  {
    if |cs| > 0 {
      var init := cs[..|cs| - 1];
      SelectedCountSplit(cs);
      SelectedCountIsRowCount(init);
      SelectedRowsSplit(cs);
    }
  }

  /** The selected indices of a list are those of all but its last row,
      plus the last index when that row is selected. */
  lemma SelectedRowsSplit(cs: seq<Container>)
    requires |cs| > 0
    ensures var n, init := |cs|, SelectedRows(cs[..|cs| - 1]);
      && n - 1 !in init
      && SelectedRows(cs) == if cs[n - 1].selected then init + {n - 1} else init
  {
    var n := |cs|;
    assert SelectedRows(cs[..n - 1]) == set i | 0 <= i < n - 1 && cs[i].selected;
  }

  /** The names of all rows in list order, whatever their flags. */
  function AllNames(cs: seq<Container>): (r: seq<string>)
    ensures |r| == |cs|
    ensures forall i :: 0 <= i < |cs| ==> r[i] == cs[i].name
    decreases |cs|
  {
    if |cs| == 0 then [] else AllNames(cs[..|cs| - 1]) + [cs[|cs| - 1].name]
  }

  /** Once every row is selected, the selected names are all the names. */
  lemma {:induction false} SelectedNamesOfAllSelected(cs: seq<Container>)
    requires AllSelected(cs)
    ensures SelectedNames(cs) == AllNames(cs)
    decreases |cs|
  {
    if |cs| > 0 {
      assert cs[|cs| - 1] in cs;
      SelectedNamesOfAllSelected(cs[..|cs| - 1]);
    }
  }

  /** With every flag cleared no name is selected. */
  lemma {:induction false} SelectedNamesOfNoneSelected(cs: seq<Container>)
    requires forall c :: c in cs ==> !c.selected
    ensures SelectedNames(cs) == []
    decreases |cs|
  {
    if |cs| > 0 {
      assert cs[|cs| - 1] in cs;
      SelectedNamesOfNoneSelected(cs[..|cs| - 1]);
    }
  }

  /** The first row with this name, if any (the `find` in
      `get_container_color`). */
  function FindByName(cs: seq<Container>, name: string): (r: Option<Container>)
    ensures r.None? <==> !HasName(cs, name)
    ensures r.Some? ==> r.value in cs && r.value.name == name
    decreases |cs|
  {
    if |cs| == 0 then None
    else if cs[0].name == name then Some(cs[0])
    else FindByName(cs[1..], name)
  }
}

=== FILE: names.dfy ===
/** Container names: their ordering (the order the container list is kept
    in) and their length in UTF-8 bytes (what `String::len` reports). */
module Names {

  /** `a` sorts before or equal to `b`: lexicographic order on code points.
      Rust compares `String`s by their UTF-8 bytes, and UTF-8 byte order
      agrees with code-point order, so this is the order `a.cmp(b)` gives. */
  predicate NameLe(a: string, b: string)
    decreases |a|
  {
    if |a| == 0 then true
    else if |b| == 0 then false
    else if a[0] != b[0] then a[0] < b[0]
    else NameLe(a[1..], b[1..])
  }

  lemma {:induction false} NameLeReflexive(a: string)
    ensures NameLe(a, a)
    decreases |a|
  {
    if |a| > 0 {
      NameLeReflexive(a[1..]);
    }
  }

  lemma {:induction false} NameLeTotal(a: string, b: string)
    ensures NameLe(a, b) || NameLe(b, a)
    decreases |a|
  {
    if |a| > 0 && |b| > 0 && a[0] == b[0] {
      NameLeTotal(a[1..], b[1..]);
    }
  }

  lemma {:induction false} NameLeTransitive(a: string, b: string, c: string)
    requires NameLe(a, b) && NameLe(b, c)
    ensures NameLe(a, c)
    decreases |a|
  {
    if |a| > 0 && |b| > 0 && |c| > 0 && a[0] == b[0] && b[0] == c[0] {
      NameLeTransitive(a[1..], b[1..], c[1..]);
    }
  }

  lemma {:induction false} NameLeAntisymmetric(a: string, b: string)
    requires NameLe(a, b) && NameLe(b, a)
    ensures a == b
    decreases |a|
  {
    if |a| > 0 {
      NameLeAntisymmetric(a[1..], b[1..]);
      assert a == [a[0]] + a[1..];
      assert b == [b[0]] + b[1..];
    }
  }

  /** Number of bytes the UTF-8 encoding of `c` takes. */
  function Utf8Len(c: char): (n: nat)
    ensures 1 <= n <= 4
    ensures n == 1 <==> (c as int) < 0x80
  {
    if (c as int) < 0x80 then 1
    else if (c as int) < 0x800 then 2
    else if (c as int) < 0x1_0000 then 3
    else 4
  }

  /** `s.len()` of a Rust string: its length in UTF-8 bytes. */
  function ByteLen(s: string): (n: nat)
    ensures |s| <= n <= 4 * |s|
    ensures (forall i :: 0 <= i < |s| ==> (s[i] as int) < 0x80) ==> n == |s|
    decreases |s|
  {
    if |s| == 0 then 0 else Utf8Len(s[0]) + ByteLen(s[1..])
  }
}

=== FILE: palette.dfy ===
/** The TUI's container colours (`get_color`, tui.rs). */
module Palette {

  datatype Color =
    | Cyan | Magenta | Yellow | LightMagenta | LightCyan
    | LightGreen | LightRed | LightYellow | LightBlue

  /** The palette in slot order. */
  const Slots: seq<Color> :=
    [Cyan, Magenta, Yellow, LightMagenta, LightCyan, LightGreen, LightRed, LightYellow, LightBlue]

  /** `get_color(index)`: slot `index % 9` of the palette. The source's
      fallback arm `_ => Cyan` cannot be taken, since `index % 9 < 9`. */
  function GetColor(index: nat): (c: Color)
    ensures c == Slots[index % 9]
  {
    match index % 9
    case 0 => Cyan
    case 1 => Magenta
    case 2 => Yellow
    case 3 => LightMagenta
    case 4 => LightCyan
    case 5 => LightGreen
    case 6 => LightRed
    case 7 => LightYellow
    case _ => LightBlue
  }

  /** Two colour indices get the same colour exactly when they agree
      modulo 9; so nine consecutive indices get nine different colours. */
  lemma SameColorIffSameSlot(i: nat, j: nat)
    ensures GetColor(i) == GetColor(j) <==> i % 9 == j % 9
  {
  }
}

=== FILE: render.dfy ===
/** The pure part of the log pane renderer in `ui` (tui.rs): per-line
    sanitising, name splitting and width truncation, the second truncation
    pass over spans, the scroll offset, and the left pane width. Display
    width of a character (the `unicode-width` tables) is a parameter. */
module Render {
  import opened Wrappers
  import opened Containers
  import opened Palette
  import opened AppModel
  import opened Ansi

  /** Rust's `char::is_control`: the Unicode category Cc, that is
      U+0000..U+001F and U+007F..U+009F. */
  predicate IsControl(c: char) {
    (c as int) <= 0x1F || (0x7F <= (c as int) <= 0x9F)
  }

  predicate NoControls(s: string) {
    forall i :: 0 <= i < |s| ==> !IsControl(s[i])
  }

  // ------------------------------------------------------------ sanitising

  /** `.chars().filter(|c| !c.is_control() || *c == ' ')`. */
  function DropControls(s: string): (r: string)
    ensures NoControls(r)
    ensures forall c :: c in r ==> c in s
    ensures NoControls(s) ==> r == s
    decreases |s|
  {
    if |s| == 0 then []
    else if !IsControl(s[0]) || s[0] == ' ' then
      assert NoControls(s) ==> NoControls(s[1..]);
      [s[0]] + DropControls(s[1..])
    else DropControls(s[1..])
  }

  /** `str::replace(c, rep)` for a single character `c`. */
  function ReplaceChar(s: string, c: char, rep: string): (r: string)
    ensures (forall i :: 0 <= i < |s| ==> s[i] != c) ==> r == s
    ensures forall x :: x in r ==> x in s || x in rep
    decreases |s|
  {
    if |s| == 0 then []
    else (if s[0] == c then rep else [s[0]]) + ReplaceChar(s[1..], c, rep)
  }

  /** The sanitised form of a stored line: ANSI sequences stripped, control
      characters dropped, then CR removed, LF turned into a space and TAB
      into four spaces. */
  function Sanitize(line: string): (r: string)
    ensures NoControls(r)
    ensures forall c :: c in r ==> c in line
  {
    StripAnsiAddsNothing(line);
    var kept := DropControls(StripAnsi(line));
    ReplaceChar(ReplaceChar(ReplaceChar(kept, '\r', ""), '\n', " "), '\t', "    ")
  }

  /** The control filter runs first and removes CR, LF and TAB, so the three
      replacements after it never fire: a tab in a log line is deleted, not
      expanded to spaces. */
  lemma ReplacementsNeverFire(line: string)
    ensures Sanitize(line) == DropControls(StripAnsi(line))
    ensures '\t' !in Sanitize(line) && '\n' !in Sanitize(line) && '\r' !in Sanitize(line)
  {
    var kept := DropControls(StripAnsi(line));
    assert IsControl('\r') && IsControl('\n') && IsControl('\t');
    assert forall i :: 0 <= i < |kept| ==> kept[i] != '\r' && kept[i] != '\n' && kept[i] != '\t';
  }

  /** Plain text (no ESC, no control character) survives sanitising intact. */
  lemma SanitizeKeepsPlainText(line: string)
    requires NoControls(line)
    ensures Sanitize(line) == line
  {
    assert EscFree(line) by {
      assert IsControl(ESC);
    }
    StripAnsiKeepsEscFree(line);
    ReplacementsNeverFire(line);
  }

  // ----------------------------------------------------------------- width

  predicate IsPrefix(a: string, b: string) {
    |a| <= |b| && a == b[..|a|]
  }

  /** Display width of a string: the sum of its characters' widths. */
  function StrWidth(s: string, width: char -> nat): nat
    decreases |s|
  {
    if |s| == 0 then 0 else width(s[0]) + StrWidth(s[1..], width)
  }

  /** No character is wider than its string, and a string of one-column
      characters is as wide as it is long. */
  lemma {:induction false} StrWidthCountsColumns(s: string, width: char -> nat)
    ensures forall i :: 0 <= i < |s| ==> width(s[i]) <= StrWidth(s, width)
    ensures (forall i :: 0 <= i < |s| ==> width(s[i]) == 1) ==> StrWidth(s, width) == |s|
    decreases |s|
  {
    if |s| > 0 {
      StrWidthCountsColumns(s[1..], width);
      assert forall i :: 1 <= i < |s| ==> s[i] == s[1..][i - 1];
    }
  }

  lemma {:induction false} StrWidthAppend(a: string, b: string, width: char -> nat)
    ensures StrWidth(a + b, width) == StrWidth(a, width) + StrWidth(b, width)
    decreases |a|
  {
    if |a| == 0 {
      assert a + b == b;
    } else {
      assert (a + b)[1..] == a[1..] + b;
      StrWidthAppend(a[1..], b, width);
    }
  }

  /** `max_width`: the pane width less 8 for borders and margin, or 5 on a
      pane of width 8 or less. Never zero; note that it falls from 5 at
      width 8 to 1 at width 9. */
  function MaxWidth(paneWidth: nat): (r: nat)
    ensures r >= 1
    ensures paneWidth > 8 ==> r == paneWidth - 8
    ensures paneWidth <= 8 ==> r == 5
  {
    if paneWidth > 8 then paneWidth - 8 else 5
  }

  /** The budget is not monotone in the pane width: it falls from 5 at
      width 8 to 1 at width 9. On panes narrower than 7 it is wider than the
      pane's interior (the width less its two border columns). */
  lemma MaxWidthIsNotMonotone()
    ensures MaxWidth(8) == 5 && MaxWidth(9) == 1
    ensures forall p: nat :: p < 7 ==> MaxWidth(p) > SatSub(p, 2)
  {
  }

  /** `a.saturating_sub(b)` on `usize`. */
  function SatSub(a: nat, b: nat): (r: nat)
    ensures r + b >= a && r <= a
    ensures b <= a ==> r + b == a
    ensures b > a ==> r == 0
  {
    if a >= b then a - b else 0
  }

  /** The truncation loop, continued from a width already `used`: take the
      next character only while the running width plus its width stays
      strictly below `budget`. */
  function TruncateFrom(s: string, budget: nat, width: char -> nat, used: nat): (r: string)
    ensures IsPrefix(r, s)
    ensures used < budget ==> used + StrWidth(r, width) < budget
    decreases |s|
  {
    if |s| == 0 then []
    else if used + width(s[0]) >= budget then []
    else
      var t := TruncateFrom(s[1..], budget, width, used + width(s[0]));
      assert ([s[0]] + t)[1..] == t;
      [s[0]] + t
  }

  /** The longest prefix of `s` whose every step keeps the width strictly
      below `budget`: a prefix of the input, narrower than the budget, and
      either all of `s` or stopped by a character that would reach it. */
  function Truncate(s: string, budget: nat, width: char -> nat): (r: string)
    ensures IsPrefix(r, s)
    ensures budget > 0 ==> StrWidth(r, width) < budget
    ensures budget == 0 ==> r == []
    ensures r == s || StrWidth(r, width) + width(s[|r|]) >= budget
  {
    TruncateFromStopsAtOverflow(s, budget, width, 0);
    TruncateFrom(s, budget, width, 0)
  }

  /** The scan stops only at the end of the text or at a character whose
      width would bring the running total up to the budget. */
  lemma {:induction false} TruncateFromStopsAtOverflow(s: string, budget: nat, width: char -> nat, used: nat)
    ensures var r := TruncateFrom(s, budget, width, used);
      r == s || used + StrWidth(r, width) + width(s[|r|]) >= budget
    decreases |s|
  {
    if |s| > 0 && used + width(s[0]) < budget {
      var t := TruncateFrom(s[1..], budget, width, used + width(s[0]));
      TruncateFromStopsAtOverflow(s[1..], budget, width, used + width(s[0]));
      assert TruncateFrom(s, budget, width, used) == [s[0]] + t;
      assert ([s[0]] + t)[1..] == t;
      if t == s[1..] {
        assert [s[0]] + t == s;
      } else {
        assert s[1..][|t|] == s[|t| + 1];
      }
    }
  }

  /** Text narrower than the budget is never cut. */
  lemma {:induction false} TruncateFromKeepsNarrowText(s: string, budget: nat, width: char -> nat, used: nat)
    requires used + StrWidth(s, width) < budget
    ensures TruncateFrom(s, budget, width, used) == s
    decreases |s|
  {
    if |s| > 0 {
      TruncateFromKeepsNarrowText(s[1..], budget, width, used + width(s[0]));
      assert s == [s[0]] + s[1..];
    }
  }

  /** One step of the truncation loop: a character that fits is kept. */
  lemma TruncateFromStep(s: string, i: nat, budget: nat, width: char -> nat, used: nat)
    requires i < |s| && used + width(s[i]) < budget
    ensures TruncateFrom(s[i..], budget, width, used)
      == [s[i]] + TruncateFrom(s[i + 1..], budget, width, used + width(s[i]))
  {
    assert s[i..][0] == s[i] && s[i..][1..] == s[i + 1..];
  }

  /** The same step seen from the loop: the kept prefix grows by the
      character and the rest of the scan starts one further on. */
  lemma TruncateLoopStep(t: string, s: string, i: nat, budget: nat, width: char -> nat, used: nat)
    requires i < |s| && used + width(s[i]) < budget
    ensures t + TruncateFrom(s[i..], budget, width, used)
      == (t + [s[i]]) + TruncateFrom(s[i + 1..], budget, width, used + width(s[i]))
  {
    TruncateFromStep(s, i, budget, width, used);
    var later := TruncateFrom(s[i + 1..], budget, width, used + width(s[i]));
    assert t + ([s[i]] + later) == (t + [s[i]]) + later;
  }

  /** The `for ch in rest.chars()` loop of `ui` as the source writes it. */
  method TruncateToWidth(s: string, budget: nat, width: char -> nat) returns (truncated: string)
    ensures truncated == Truncate(s, budget, width)
    ensures IsPrefix(truncated, s)
  {
    truncated := [];
    var currentWidth: nat := 0;
    var i := 0;
    assert s[i..] == s;
    while i < |s|
      invariant 0 <= i <= |s|
      invariant TruncateFrom(s, budget, width, 0) == truncated + TruncateFrom(s[i..], budget, width, currentWidth)
    {
      var ch := s[i];
      var chWidth := width(ch);
      if currentWidth + chWidth >= budget {
        TruncateLoopStops(truncated, s, i, budget, width, currentWidth);
        break;
      }
      TruncateLoopStep(truncated, s, i, budget, width, currentWidth);
      truncated := truncated + [ch];
      currentWidth := currentWidth + chWidth;
      i := i + 1;
    }
    if i == |s| {
      TruncateLoopEnds(truncated, s, budget, width, currentWidth);
    }
    assert truncated == TruncateFrom(s, budget, width, 0);
  }

  /** The loop's `break`: a character that would reach the budget ends the
      scan with nothing more kept. */
  lemma TruncateLoopStops(t: string, s: string, i: nat, budget: nat, width: char -> nat, used: nat)
    requires i < |s| && used + width(s[i]) >= budget
    ensures t + TruncateFrom(s[i..], budget, width, used) == t
  {
    assert s[i..][0] == s[i];
    assert t + [] == t;
  }

  /** The loop runs off the end of the text with nothing left to scan. */
  lemma TruncateLoopEnds(t: string, s: string, budget: nat, width: char -> nat, used: nat)
    ensures t + TruncateFrom(s[|s|..], budget, width, used) == t
  {
    assert s[|s|..] == [];
    assert t + [] == t;
  }

  // ----------------------------------------------------------- line parts

  /** `str::find(' ')`: the position of the first space. */
  function FirstSpace(s: string): (r: Option<nat>)
    ensures r.None? ==> ' ' !in s
    ensures r.Some? ==> r.value < |s| && s[r.value] == ' ' && ' ' !in s[..r.value]
    decreases |s|
  {
    if |s| == 0 then None
    else if s[0] == ' ' then Some(0)
    else
      match FirstSpace(s[1..])
      case None => None
      case Some(k) =>
        assert s[..k + 1] == [s[0]] + s[1..][..k];
        Some(k + 1)
  }

  /** `get_container_color`: the colour of the first row with this name. */
  function ContainerColor(cs: seq<Container>, name: string): (r: Option<Color>)
    ensures r.Some? <==> HasName(cs, name)
    ensures r.Some? ==> exists c :: c in cs && c.name == name && r.value == GetColor(c.colorIndex)
  {
    match FindByName(cs, name)
    case None => None
    case Some(c) => Some(GetColor(c.colorIndex))
  }

  /** The `(container_name, color, rest)` triple built for each line. */
  datatype LineParts = LineParts(name: Option<string>, color: Option<Color>, rest: string)

  /** Lines are stored as "<name> <descriptor>: <text>". With names shown,
      a first word that names a listed container is split off (the rest
      keeps its leading space); with exactly one container selected, the
      first word and its space are dropped. */
  function SplitLine(cs: seq<Container>, line: string, showNames: bool): (p: LineParts)
    ensures p.name.Some? <==> p.color.Some?
    ensures p.name.Some? ==>
      && showNames && p.name.value + p.rest == line
      && ' ' !in p.name.value && |p.rest| > 0 && p.rest[0] == ' '
      && p.color == ContainerColor(cs, p.name.value) && HasName(cs, p.name.value)
    ensures showNames && p.name.None? ==> p.rest == line
    ensures showNames && FirstSpace(line).Some? && HasName(cs, line[..FirstSpace(line).value]) ==>
      p.name == Some(line[..FirstSpace(line).value])
    ensures !showNames && ' ' !in line ==> p.name.None? && p.rest == line
    ensures !showNames && ' ' in line ==>
      var k := |line| - |p.rest| - 1;
      && p.name.None? && 0 <= k < |line|
      && line[k] == ' ' && ' ' !in line[..k] && p.rest == line[k + 1..]
    ensures NoControls(line) ==>
      NoControls(p.rest) && (p.name.Some? ==> NoControls(p.name.value))
  {
    match FirstSpace(line)
    case None => LineParts(None, None, line)
    case Some(k) =>
      if showNames then
        var name := line[..k];
        assert name + line[k..] == line;
        match ContainerColor(cs, name)
        case Some(c) => LineParts(Some(name), Some(c), line[k..])
        case None => LineParts(None, None, line)
      else LineParts(None, None, line[k + 1..])
  }

  // ----------------------------------------------------------------- spans

  /** A styled run of text: `color` is Some for the bold coloured name,
      None for raw text. */
  datatype Span = Span(content: string, color: Option<Color>)

  function LineWidth(spans: seq<Span>, width: char -> nat): (r: nat)
    ensures |spans| > 0 ==> StrWidth(spans[0].content, width) <= r
    decreases |spans|
  {
    if |spans| == 0 then 0 else StrWidth(spans[0].content, width) + LineWidth(spans[1..], width)
  }

  /** The width of a line is the width of its text with the spans joined. */
  lemma {:induction false} LineWidthIsJoinedWidth(spans: seq<Span>, width: char -> nat)
    ensures LineWidth(spans, width) == StrWidth(Joined(spans), width)
    decreases |spans|
  {
    if |spans| > 0 {
      LineWidthIsJoinedWidth(spans[1..], width);
      StrWidthAppend(spans[0].content, Joined(spans[1..]), width);
    }
  }

  predicate SpansClean(spans: seq<Span>) {
    forall k :: 0 <= k < |spans| ==> NoControls(spans[k].content)
  }

  /** The first truncation pass: one sanitised, split and truncated line.
      Next to a coloured name the text budget is `max_width` less the
      name's width less 2, both subtractions saturating. */
  function RenderLogLine(cs: seq<Container>, raw: string, showNames: bool, maxWidth: nat, width: char -> nat): (spans: seq<Span>)
    ensures SpansClean(spans)
    ensures 1 <= |spans| <= 2
    ensures |spans| == 1 ==> spans[0].color.None? && (maxWidth > 0 ==> LineWidth(spans, width) < maxWidth)
    ensures |spans| == 2 ==>
      && showNames && spans[0].color.Some? && spans[1].color.None?
      && (StrWidth(spans[0].content, width) + 2 < maxWidth ==> LineWidth(spans, width) + 2 < maxWidth)
    ensures var p := SplitLine(cs, Sanitize(raw), showNames);
      && (|spans| == 2 <==> p.name.Some?)
      && (p.name.Some? ==>
            && spans[0] == Span(p.name.value, p.color)
            && spans[1].content == Truncate(p.rest, NamedBudget(p.name.value, maxWidth, width), width))
      && (p.name.None? ==> spans[0].content == Truncate(p.rest, maxWidth, width))
  {
    var parts := SplitLine(cs, Sanitize(raw), showNames);
    DrawParts(parts, maxWidth, width)
  }

  /** Parts as `SplitLine` leaves them: a name comes with its colour, and
      no text holds a control character. */
  predicate CleanParts(p: LineParts) {
    && (p.name.Some? <==> p.color.Some?)
    && NoControls(p.rest)
    && (p.name.Some? ==> NoControls(p.name.value))
  }

  /** The first pass on split parts: the coloured name and its cut text, or
      the plain cut text. */
  function DrawParts(p: LineParts, maxWidth: nat, width: char -> nat): (spans: seq<Span>)
    requires CleanParts(p)
    ensures SpansClean(spans)
    ensures p.name.None? ==> |spans| == 1 && spans[0] == RenderPlain(p.rest, maxWidth, width)
    ensures p.name.Some? ==> spans == RenderNamed(p.name.value, p.color.value, p.rest, maxWidth, width)
  {
    match p.name
    case Some(name) => RenderNamed(name, p.color.value, p.rest, maxWidth, width)
    case None => [RenderPlain(p.rest, maxWidth, width)]
  }

  /** A line drawn without a name: its text cut to the whole budget. */
  function RenderPlain(text: string, maxWidth: nat, width: char -> nat): (span: Span)
    requires NoControls(text)
    ensures span.color.None? && IsPrefix(span.content, text) && NoControls(span.content)
    ensures maxWidth > 0 ==> LineWidth([span], width) < maxWidth
    ensures span.content == text || StrWidth(span.content, width) + width(text[|span.content|]) >= maxWidth
  {
    var cut := Truncate(text, maxWidth, width);
    PrefixKeepsClean(cut, text);
    assert [Span(cut, None)][1..] == [];
    Span(cut, None)
  }

  /** The text budget next to a coloured name: `max_width` less the name's
      width less 2, both subtractions saturating. */
  function NamedBudget(name: string, maxWidth: nat, width: char -> nat): (r: nat)
    ensures StrWidth(name, width) + 2 <= maxWidth ==> r + StrWidth(name, width) + 2 == maxWidth
    ensures StrWidth(name, width) + 2 >= maxWidth ==> r == 0
  {
    SatSub(SatSub(maxWidth, StrWidth(name, width)), 2)
  }

  /** A line drawn with its coloured name: the text after the name is cut to
      `max_width` less the name's width less 2 (both saturating). */
  function RenderNamed(name: string, color: Color, rest: string, maxWidth: nat, width: char -> nat): (spans: seq<Span>)
    requires NoControls(name) && NoControls(rest)
    ensures |spans| == 2 && spans[0] == Span(name, Some(color)) && spans[1].color.None?
    ensures IsPrefix(spans[1].content, rest) && SpansClean(spans)
    ensures StrWidth(name, width) + 2 < maxWidth ==> LineWidth(spans, width) + 2 < maxWidth
    ensures StrWidth(name, width) + 2 >= maxWidth ==> spans[1].content == []
    ensures spans[1].content == rest
      || StrWidth(spans[1].content, width) + width(rest[|spans[1].content|]) >= NamedBudget(name, maxWidth, width)
  {
    var remaining := NamedBudget(name, maxWidth, width);
    var text := Truncate(rest, remaining, width);
    PrefixKeepsClean(text, rest);
    var spans := [Span(name, Some(color)), Span(text, None)];
    assert spans[1..] == [Span(text, None)] && spans[1..][1..] == [];
    assert LineWidth(spans[1..], width) == StrWidth(text, width);
    assert LineWidth(spans, width) == StrWidth(name, width) + StrWidth(text, width);
    spans
  }

  /** With names hidden, a plain line "<name> <text>", say "api o: hello",
      is drawn as the single raw span "o: hello" when that fits. */
  lemma HiddenNameDropsFirstWord(cs: seq<Container>, word: string, text: string, maxWidth: nat, width: char -> nat)
    requires ' ' !in word && NoControls(word + " " + text)
    requires StrWidth(text, width) < maxWidth
    ensures RenderLogLine(cs, word + " " + text, false, maxWidth, width) == [Span(text, None)]
  {
    SanitizeKeepsPlainText(word + " " + text);
    SplitDropsFirstWord(cs, word, text);
    TruncateFromKeepsNarrowText(text, maxWidth, width, 0);
  }

  /** With names hidden, a line "<word> <text>" is drawn from `text`: the
      first word and the one space after it go, whatever `text` holds. */
  lemma SplitDropsFirstWord(cs: seq<Container>, word: string, text: string)
    requires ' ' !in word
    ensures SplitLine(cs, word + " " + text, false) == LineParts(None, None, text)
  {
    var line := word + " " + text;
    FirstSpaceAfterWord(word, text);
    assert line[|word| + 1..] == text;
  }

  lemma {:induction false} FirstSpaceAfterWord(word: string, text: string)
    requires ' ' !in word
    ensures FirstSpace(word + " " + text) == Some(|word|)
    decreases |word|
  {
    var line := word + " " + text;
    if |word| > 0 {
      assert line[0] == word[0] && line[1..] == word[1..] + " " + text;
      FirstSpaceAfterWord(word[1..], text);
    }
  }

  /** Keep whole spans while the running width stays below `max`; cut the
      first span that would reach it to the remaining budget, and stop. */
  function TakeSpans(spans: seq<Span>, max: nat, width: char -> nat, used: nat): (r: seq<Span>)
    ensures |r| <= |spans|
    ensures forall k :: 0 <= k < |r| ==> r[k].color == spans[k].color && IsPrefix(r[k].content, spans[k].content)
    ensures forall k :: 0 <= k < |r| - 1 ==> r[k] == spans[k]
    ensures used < max ==> used + LineWidth(r, width) < max
    decreases |spans|
  {
    if |spans| == 0 then []
    else
      var w := StrWidth(spans[0].content, width);
      if used + w < max then
        var t := TakeSpans(spans[1..], max, width, used + w);
        assert ([spans[0]] + t)[1..] == t;
        [spans[0]] + t
      else
        var remaining := SatSub(max, used);
        if remaining > 0 then
          var cut := [spans[0].(content := Truncate(spans[0].content, remaining, width))];
          assert cut[1..] == [];
          cut
        else []
  }

  /** The second "safety" pass: a line as wide as the budget or wider is
      cut back with `TakeSpans`; a narrower line is left alone. */
  function SafetyPass(spans: seq<Span>, max: nat, width: char -> nat): (r: seq<Span>)
    ensures max > 0 ==> LineWidth(r, width) < max
    ensures LineWidth(spans, width) < max ==> r == spans
    ensures |r| <= |spans|
    ensures forall k :: 0 <= k < |r| ==> r[k].color == spans[k].color && IsPrefix(r[k].content, spans[k].content)
  {
    if LineWidth(spans, width) >= max then TakeSpans(spans, max, width, 0) else spans
  }

  lemma PrefixKeepsClean(a: string, b: string)
    requires IsPrefix(a, b) && NoControls(b)
    ensures NoControls(a)
  {
    assert forall i :: 0 <= i < |a| ==> a[i] == b[i];
  }

  /** The log pane: every merged-buffer line rendered, in order, through
      both truncation passes. Names are shown unless exactly one container
      is selected. */
  function RenderLogs(s: AppState, paneWidth: nat, width: char -> nat): (lines: seq<seq<Span>>)
    ensures |lines| == |s.logs|
    ensures forall k :: 0 <= k < |lines| ==> LineWidth(lines[k], width) < MaxWidth(paneWidth)
    ensures forall k :: 0 <= k < |lines| ==> SpansClean(lines[k])
    ensures forall k :: 0 <= k < |lines| ==>
      lines[k] == ShownLine(SplitLine(s.containers, Sanitize(s.logs[k]), SelectedCount(s.containers) != 1), MaxWidth(paneWidth), width)
  {
    var maxWidth := MaxWidth(paneWidth);
    var showNames := SelectedCount(s.containers) != 1;
    var lines := seq(|s.logs|, k requires 0 <= k < |s.logs| =>
      SafetyPass(RenderLogLine(s.containers, s.logs[k], showNames, maxWidth, width), maxWidth, width));
    forall k | 0 <= k < |lines|
      ensures SpansClean(lines[k])
      ensures lines[k] == ShownLine(SplitLine(s.containers, Sanitize(s.logs[k]), showNames), maxWidth, width)
    {
      var first := RenderLogLine(s.containers, s.logs[k], showNames, maxWidth, width);
      forall j | 0 <= j < |lines[k]|
        ensures NoControls(lines[k][j].content)
      {
        PrefixKeepsClean(lines[k][j].content, first[j].content);
      }
      BothPassesGiveShownLine(SplitLine(s.containers, Sanitize(s.logs[k]), showNames), maxWidth, width);
    }
    lines
  }

  /** What a buffered line finally shows, read case by case rather than as
      two passes: without a name, its text cut to the whole budget; with a
      name that leaves room, the name and the text cut to what is left; with
      a name that fits but leaves no room, the name and an empty span; with
      a name wider than the budget, only the name, itself cut. */
  function ShownLine(p: LineParts, maxWidth: nat, width: char -> nat): (r: seq<Span>)
    ensures 1 <= |r| <= 2
    ensures maxWidth > 0 ==> LineWidth(r, width) < maxWidth
  {
    match p.name
    case None =>
      var t := Truncate(p.rest, maxWidth, width);
      OneSpanWidth(Span(t, None), width);
      [Span(t, None)]
    case Some(name) =>
      var w := StrWidth(name, width);
      if w + 2 < maxWidth then
        var t := Truncate(p.rest, maxWidth - w - 2, width);
        TwoSpanWidth(Span(name, p.color), Span(t, None), width);
        [Span(name, p.color), Span(t, None)]
      else if w < maxWidth then
        TwoSpanWidth(Span(name, p.color), Span([], None), width);
        [Span(name, p.color), Span([], None)]
      else
        var t := Truncate(name, maxWidth, width);
        OneSpanWidth(Span(t, p.color), width);
        [Span(t, p.color)]
  }

  lemma OneSpanWidth(a: Span, width: char -> nat)
    ensures LineWidth([a], width) == StrWidth(a.content, width)
  {
    assert [a][1..] == [];
  }

  lemma TwoSpanWidth(a: Span, b: Span, width: char -> nat)
    ensures LineWidth([a, b], width) == StrWidth(a.content, width) + StrWidth(b.content, width)
  {
    assert [a, b][1..] == [b];
    OneSpanWidth(b, width);
  }

  /** The first pass followed by the safety pass draws exactly `ShownLine`
      for any positive budget. */
  lemma BothPassesGiveShownLine(p: LineParts, maxWidth: nat, width: char -> nat)
    requires CleanParts(p) && maxWidth > 0
    ensures SafetyPass(DrawParts(p, maxWidth, width), maxWidth, width) == ShownLine(p, maxWidth, width)
  {
    var first := DrawParts(p, maxWidth, width);
    if p.name.None? {
      OneSpanWidth(first[0], width);
      assert first == [first[0]];
    } else {
      var name := p.name.value;
      var w := StrWidth(name, width);
      assert first == [first[0], first[1]];
      TwoSpanWidth(first[0], first[1], width);
      if w + 2 < maxWidth {
        assert first == ShownLine(p, maxWidth, width);
      } else if w < maxWidth {
        assert first == ShownLine(p, maxWidth, width);
      } else {
        OverlongNameIsCut(first, maxWidth, width);
      }
    }
  }

  /** A two-span line whose first span alone reaches the budget keeps only
      that span, cut to the budget. */
  lemma OverlongNameIsCut(spans: seq<Span>, maxWidth: nat, width: char -> nat)
    requires |spans| == 2 && maxWidth > 0
    requires StrWidth(spans[0].content, width) >= maxWidth
    ensures TakeSpans(spans, maxWidth, width, 0) == [spans[0].(content := Truncate(spans[0].content, maxWidth, width))]
  {
  }

  /** The concatenated text of a drawn line. */
  function Joined(spans: seq<Span>): string
    decreases |spans|
  {
    if |spans| == 0 then [] else spans[0].content + Joined(spans[1..])
  }

  lemma JoinedOne(a: Span)
    ensures Joined([a]) == a.content
  {
    assert [a][1..] == [];
  }

  lemma JoinedTwo(a: Span, b: Span)
    ensures Joined([a, b]) == a.content + b.content
  {
    assert [a, b][1..] == [b];
    JoinedOne(b);
  }

  /** The drawn text is a prefix of what was split: the name and its text,
      or the text alone. */
  lemma ShownPartsArePrefix(p: LineParts, maxWidth: nat, width: char -> nat)
    ensures p.name.Some? ==> IsPrefix(Joined(ShownLine(p, maxWidth, width)), p.name.value + p.rest)
    ensures p.name.None? ==> IsPrefix(Joined(ShownLine(p, maxWidth, width)), p.rest)
  {
    var r := ShownLine(p, maxWidth, width);
    if |r| == 2 {
      JoinedTwo(r[0], r[1]);
      assert r == [r[0], r[1]];
      var name := p.name.value;
      assert r[0].content == name && IsPrefix(r[1].content, p.rest);
      assert name + r[1].content == (name + p.rest)[..|name| + |r[1].content|];
    } else {
      JoinedOne(r[0]);
      assert r == [r[0]];
    }
  }

  /** The drawn text is a prefix of the sanitised line when names are
      shown, and of the text after the first word when they are not. */
  lemma ShownTextIsPrefix(cs: seq<Container>, raw: string, showNames: bool, maxWidth: nat, width: char -> nat)
    ensures var line := Sanitize(raw);
      var shown := Joined(ShownLine(SplitLine(cs, line, showNames), maxWidth, width));
      && (showNames || FirstSpace(line).None? ==> IsPrefix(shown, line))
      && (!showNames && FirstSpace(line).Some? ==> IsPrefix(shown, line[FirstSpace(line).value + 1..]))
  {
    var line := Sanitize(raw);
    var p := SplitLine(cs, line, showNames);
    ShownPartsArePrefix(p, maxWidth, width);
    if !showNames && FirstSpace(line).Some? {
      assert ' ' in line;
    }
  }

  /** Exactly one container selected: every clean buffered line
      "<word> <text>" is drawn as the single uncoloured span `text`, cut to
      the budget, whether or not `word` names a container. */
  lemma SingleSelectionDropsName(s: AppState, paneWidth: nat, width: char -> nat, k: nat, word: string, text: string)
    requires SelectedCount(s.containers) == 1
    requires k < |s.logs| && s.logs[k] == word + " " + text
    requires ' ' !in word && NoControls(s.logs[k])
    ensures RenderLogs(s, paneWidth, width)[k] == [Span(Truncate(text, MaxWidth(paneWidth), width), None)]
  {
    SanitizeKeepsPlainText(s.logs[k]);
    SplitDropsFirstWord(s.containers, word, text);
  }

  /** Any other number of containers selected: a clean buffered line whose
      first word names a container starts with that name in the container's
      colour, as long as the name leaves room for the text. */
  lemma OtherSelectionsShowName(s: AppState, paneWidth: nat, width: char -> nat, k: nat, word: string, text: string)
    requires SelectedCount(s.containers) != 1
    requires k < |s.logs| && s.logs[k] == word + " " + text
    requires ' ' !in word && NoControls(s.logs[k]) && HasName(s.containers, word)
    requires StrWidth(word, width) + 2 < MaxWidth(paneWidth)
    ensures RenderLogs(s, paneWidth, width)[k] == [
      Span(word, ContainerColor(s.containers, word)),
      Span(Truncate(" " + text, NamedBudget(word, MaxWidth(paneWidth), width), width), None)]
  {
    var line := s.logs[k];
    SanitizeKeepsPlainText(line);
    SplitKeepsKnownName(s.containers, word, text);
    var p := LineParts(Some(word), ContainerColor(s.containers, word), " " + text);
    assert SplitLine(s.containers, Sanitize(line), true) == p;
    var lines := RenderLogs(s, paneWidth, width);
    assert lines[k] == ShownLine(SplitLine(s.containers, Sanitize(line), true), MaxWidth(paneWidth), width);
    ShownLineOfRoomyName(p, MaxWidth(paneWidth), width);
  }

  lemma ShownLineOfRoomyName(p: LineParts, maxWidth: nat, width: char -> nat)
    requires p.name.Some? && StrWidth(p.name.value, width) + 2 < maxWidth
    ensures ShownLine(p, maxWidth, width) == [
      Span(p.name.value, p.color),
      Span(Truncate(p.rest, NamedBudget(p.name.value, maxWidth, width), width), None)]
  {
  }

  /** With names shown, a line "<word> <text>" whose first word names a
      container splits into that name, its colour, and " <text>". */
  lemma SplitKeepsKnownName(cs: seq<Container>, word: string, text: string)
    requires ' ' !in word && HasName(cs, word)
    ensures SplitLine(cs, word + " " + text, true) == LineParts(Some(word), ContainerColor(cs, word), " " + text)
  {
    var line := word + " " + text;
    FirstSpaceAfterWord(word, text);
    assert line[..|word|] == word;
    assert line[|word|..] == " " + text;
  }

  /** The safety pass never changes a line drawn without a name, nor one
      whose name leaves room for its text: it only matters when a coloured
      name is itself wider than the budget allows. */
  lemma SafetyPassOnlyCutsOverlongNames(cs: seq<Container>, raw: string, showNames: bool, maxWidth: nat, width: char -> nat)
    requires maxWidth > 0
    ensures var first := RenderLogLine(cs, raw, showNames, maxWidth, width);
      (|first| == 1 || StrWidth(first[0].content, width) + 2 < maxWidth) ==>
        SafetyPass(first, maxWidth, width) == first
  {
  }

  // ----------------------------------------------------------- geometry

  /** The paragraph scroll that keeps the newest line on the bottom row: the
      pane loses two rows to its borders (saturating), and the offset is
      cast to `u16`. */
  function ScrollOffset(logCount: nat, paneHeight: nat): (r: nat)
    ensures r < 0x1_0000
    ensures logCount <= SatSub(paneHeight, 2) ==> r == 0
    ensures SatSub(paneHeight, 2) < logCount < SatSub(paneHeight, 2) + 0x1_0000 ==>
      r + SatSub(paneHeight, 2) == logCount
    ensures SatSub(paneHeight, 2) < logCount ==> r == (logCount - SatSub(paneHeight, 2)) % 0x1_0000
  {
    var blockHeight := SatSub(paneHeight, 2);
    if logCount > blockHeight then (logCount - blockHeight) % 0x1_0000 else 0
  }

  /** `left_width`: the widest name plus 3 (at least 23), but no more than a
      third of the screen. */
  function LeftPaneWidth(cs: seq<Container>, screenWidth: nat): (r: nat)
    ensures r <= screenWidth / 3
    ensures r <= MaxContainerNameWidth(cs)
    ensures r == screenWidth / 3 || r == MaxContainerNameWidth(cs)
  {
    var wanted := MaxContainerNameWidth(cs);
    if wanted < screenWidth / 3 then wanted else screenWidth / 3
  }
}

=== FILE: rings.dfy ===
/** The bounded FIFO buffers of the TUI (`VecDeque<String>` rings capped at
    `max_logs`), as sequences: the oldest line is at index 0. */
module Rings {

  /** The last `n` entries of `xs` (all of them when there are at most `n`). */
  function Tail<T>(xs: seq<T>, n: nat): (r: seq<T>)
    ensures |r| <= n && |r| <= |xs|
    ensures |r| == n || |r| == |xs|
    ensures r == xs[|xs| - |r|..]
  {
    if |xs| > n then xs[|xs| - n..] else xs
  }

  /** `push_back(x)` followed by a single `pop_front()` when the length then
      exceeds `max` (the eviction step of `add_log`). */
  function PushBounded<T>(q: seq<T>, x: T, max: nat): (r: seq<T>)
    ensures |q| <= max ==> |r| <= max
    ensures |q| <= max ==> r == Tail(q + [x], max)
    ensures max > 0 ==> |r| > 0 && r[|r| - 1] == x
    ensures r == q + [x] || r == (q + [x])[1..]
  {
    var p := q + [x];
    if |p| > max then p[1..] else p
  }

  /** Keeping the last `n` entries and appending more, then keeping the last
      `n` again, is the same as keeping the last `n` of everything. */
  lemma TailOfTailAppend<T>(a: seq<T>, b: seq<T>, n: nat)
    ensures Tail(Tail(a, n) + b, n) == Tail(a + b, n)
  {
    if |a| > n {
      var t := Tail(a, n);
      assert |t + b| == n + |b|;
      var lhs, rhs := Tail(t + b, n), Tail(a + b, n);
      assert |lhs| == |rhs|;
      forall i | 0 <= i < |lhs|
        ensures lhs[i] == rhs[i]
      {
        var off := |t + b| - |lhs|;
        if off + i < |t| {
          assert lhs[i] == t[off + i] == a[|a| - n + off + i];
        } else {
          assert lhs[i] == b[off + i - |t|];
        }
      }
    }
  }

  /** Pushes every line of `xs`, in order, through the bounded ring. */
  function PushAll<T>(q: seq<T>, xs: seq<T>, max: nat): (r: seq<T>)
    decreases |xs|
  {
    if |xs| == 0 then q else PushAll(PushBounded(q, xs[0], max), xs[1..], max)
  }

  /** A ring that starts within bounds always holds exactly the most recent
      `max` lines it was ever given: FIFO eviction, never more than one line
      dropped per push. */
  lemma {:induction false} PushAllKeepsNewest<T>(q: seq<T>, xs: seq<T>, max: nat)
    requires |q| <= max
    ensures PushAll(q, xs, max) == Tail(q + xs, max)
    decreases |xs|
  {
    if |xs| > 0 {
      var q' := PushBounded(q, xs[0], max);
      assert q' == Tail(q + [xs[0]], max);
      PushAllKeepsNewest(q', xs[1..], max);
      TailOfTailAppend(q + [xs[0]], xs[1..], max);
      AppendFirstRest(q, xs);
    }
  }

  lemma AppendFirstRest<T>(q: seq<T>, xs: seq<T>)
    requires |xs| > 0
    ensures q + [xs[0]] + xs[1..] == q + xs
  {
    assert [xs[0]] + xs[1..] == xs;
  }
}

=== FILE: wrappers.dfy ===
/** The optional-value type used for Rust's `Option` (a focused list index,
    a looked-up name, a container colour). */
module Wrappers {

  datatype Option<+T> = None | Some(value: T) {

    /** Returns the value in Some, or `default` when None (Rust's `unwrap_or`). */
    function GetOr(default: T): (r: T)
      ensures Some? ==> r == value
      ensures None? ==> r == default
    {
      match this
      case Some(v) => v
      case None => default
    }
  }
}
